=== FILE: README.md ===
# Tomasulo scheduling core in Dafny

A model of the scheduling core of a browser-based simulator of Tomasulo's
algorithm. The simulator shows three tables: the instruction-status log
(one row per instruction, with Issue, Execute and Write result flags), the
reservation-station pool (nine execution units: two Load, three Add, two
Mult, two Store) and the register-status table (one `Qi` slot per register,
F0, F2, ..., F14 and R0, ..., R7, plus one under the empty name, see below). Clicking a row advances that instruction
by one phase. No data values are computed: a unit's result is the flag
`Result = true`, and operands are symbolic register references
(`Regs[F2]`) or the flag `true` once a broadcast has resolved them.

The model follows `tomasulo.js`. `js/tomasulo.js` is an older copy. Its
scheduling core (the units, the pool, the assembler, the status rows and
the click handler) differs only in declarations (`var` for `let`, a
function for the `Register` class) and an unused extra parameter of the
status `execute`, so the statements about that core hold for it at
shifted lines (for instance `clear` is js/tomasulo.js:304-320, the
assembler js/tomasulo.js:415-472, the click handler
js/tomasulo.js:534-549). Outside the core the older copy also differs:
`ReservationStation.each` yields an undefined `unt` (js/tomasulo.js:397),
`InstructionStatusTable` takes the status table as a second parameter and
has an `each` generator over an undefined `instructions`
(js/tomasulo.js:555-576), and its demonstration program lacks the line
`ADDD('F10','F12','F8')` (js/tomasulo.js:612-618).

Modules, one per file, in dependency order:

- `Wrappers` and `Faults` (wrappers.dfy): `Option`, `Result`, and the
  exceptions the JavaScript raises, as values.
- `Strings` (strings.dfy): decimal text of integers as JavaScript's
  `toString` prints them, and a parser for it.
- `Registers` (registers.dfy): the register names and the register-status
  table, a map from name to the tag of the producing unit. A tag is the
  unit's index in the pool.
- `Addresses` (address.dfy): the symbolic `Address(register, offset)` and
  its text.
- `Instructions` (instructions.dfy): the assembler table, the register and
  immediate instruction records, their text, `wants()` and
  `destination()`.
- `Units` (units.dfy): one execution unit and its `getSource`, `issue`,
  `execute`, `waitingOn`, `resolve` and `clear`.
- `Stations` (stations.dfy): the pool, its `issue` (lowest free unit of
  the kind) and `writeBack` (broadcast, clear, scrub).
- `Scheduler` (scheduler.dfy): the instruction-status rows, their `issue`,
  `execute` and `writeResult`, the click dispatch `Advance`, and the
  invariant `Consistent` that every click preserves.
- `Scenarios` (scenarios.dfy): the second and third instructions of the
  demonstration program stepped click by click.

Behaviour kept as the code has it:

- `getSource` puts a free register's reference in Vj only when Vj is
  already set, and in Vk otherwise; with a fresh unit the first reference
  therefore lands in Vk, and when both source registers are free the
  second reference overwrites the first in Vk.
- `waitingOn` returns false as soon as either tag is null.
- A Store's `destination()` is its base register, because the immediate
  constructor swaps `rd` and `rs` for stores; issuing a Store therefore
  claims the base register's status slot.
- `clear` sets A to null rather than `''`, so a Load issued to a unit that
  was used before skips its address step.
- The status-level `issue` overwrites the destination slot whatever it
  held; `writeResult` empties it only when it still names the unit.
- The register-status table is built by mapping `makeStatusSlot` over
  every enumerable property of the register-file object
  (tomasulo.js:167). Besides the sixteen registers that object holds its
  `each` generator (tomasulo.js:99), a function assigned to a property and
  therefore named `''`, so the table has a seventeenth slot under the
  empty name, and an instruction naming `''` issues like any other.

Every JavaScript exception is an `Err` here. An unknown assembler key
fails at once, when `asm[key](...)` is called on an undefined property.
The assembler checks no register names: a name with no status slot fails
only when the instruction is issued (`getSource` or `destination().Qi`
on an undefined slot). The remaining faults are `execute` on a unit
holding no instruction (the `TypeError` of `object.instruction.type`,
tomasulo.js:260), a click on a row whose unit is null, and the pool's
"attempted writeback without instruction".

## Model

| member | source | states |
|---|---|---|
| Strings.IntToStringRoundTrip | tomasulo.js:441-446 | the decimal text of every integer offset in an instruction reads back as that integer |
| Registers.RegisterNamesDistinct | tomasulo.js:86-97 | the register file has sixteen pairwise different names, F0 to F14 in steps of two, then R0 to R7, none containing a comma |
| Registers.InitialStatus | tomasulo.js:108-168 | the status table has a slot exactly for each register of the file and for the empty name of the file's `each` generator, and every slot starts empty |
| Registers.EmptyNameSlot | tomasulo.js:94-104 | the slot under the empty name belongs to no register; every other slot name is a bank letter F or R followed by decimal digits |
| Registers.Scrub | tomasulo.js:307-310 | after the scrub of a cleared unit no slot names it, slots naming it are empty, every other slot is unchanged and no slot is added or removed |
| Addresses.AsWrittenAgreesOffNegatives | tomasulo.js:62-69 | the text as written and the intended text agree on plain registers and non-negative offsets |
| Addresses.DisplayTextRoundTrip | tomasulo.js:58-73 | the intended text of every address whose register name contains no `]` reads back as that address |
| Addresses.SlotAddressRoundTrip | tomasulo.js:58-73 | the intended text of every address over a name with a status slot, as every address a unit holds is, reads back as that address |
| Addresses.AsWrittenNegativeOffsetDoesNotRoundTrip | tomasulo.js:62-68 | the text as written of an address with a negative offset does not read back as that address |
| Addresses.AsWrittenDoubleMinusExample | tomasulo.js:62-68 | `Address('R1', -8)` prints as `Regs[R1] - -8` as written and `Regs[R1] - 8` as intended |
| Instructions.Lookup | tomasulo.js:456-463 | the table answers exactly the six keys LD, SUBD, ADDD, MULD, DIVD, SD, each with its own entry |
| Instructions.MnemonicOfOp | tomasulo.js:456-463 | each operation text names exactly one table entry |
| Instructions.Assemble | tomasulo.js:409-463 | an unknown key is an error; a known key gives its operation text and unit kind; the register form wants `rs, rt`, the immediate form wants `rs`, and a Store wants the caller's first operand and has the caller's second (its base register) as destination |
| Instructions.TextRoundTrip | tomasulo.js:409-454 | the text of every assembled instruction reads back as the key and operands of the call that built it, a Store included |
| Instructions.RegisterFileTextRoundTrip | tomasulo.js:409-454 | the round trip holds for every assembled instruction whose names have status slots, since those names contain no comma |
| Instructions.TextInjective | tomasulo.js:409-454 | two different assembler calls never print the same text |
| Instructions.LoadExampleText | tomasulo.js:441-443 | `LD('F6','R2',32)` prints `L.D F6,32(R2)` |
| Instructions.StoreExampleText | tomasulo.js:429-452 | `SD('F6','R2',32)` prints `S.D F6,32(R2)` in the caller's order, wants F6 and claims its base register R2 |
| Instructions.DivideExampleText | tomasulo.js:416-418 | `DIVD('F10','F0','F6')` prints `DIV.D F10,F0,F6` |
| Units.GetSource | tomasulo.js:224-237 | a full slot's producer becomes Qj if Qj is empty and Qk otherwise; a free register's reference goes to Vj, keeping Vk, when Vj is already set, and otherwise to Vk, keeping Vj; no other field changes |
| Units.BindSources | tomasulo.js:248-255 | binding the wanted registers fails exactly when one has no status slot; on success only operand fields change, every new tag comes from the status table, and the last wanted register is bound: its producer as a tag if its slot is full, its reference in Vj or Vk if not |
| Units.Issue | tomasulo.js:238-258 | a busy unit refuses and is unchanged; a free one becomes busy with the instruction and its operation, a Store's A becomes its base register plus offset, other A fields are kept, and tags come from the status table; the last wanted register is bound, as its producer's tag when its slot is full and as itself (Vj or Vk) when it is empty |
| Units.IssueRenamesSources | tomasulo.js:224-258 | every full wanted slot's producer is bound as a tag, every tag bound is such a producer, the unit has no pending tag exactly when all wanted slots are empty, and Vk holds the last wanted register whose slot is empty (the second one before the first), otherwise keeps its old value, while Vj stays unset |
| Units.Execute | tomasulo.js:259-276 | no instruction is an error; a Load with A `''` only computes its address and changes nothing else; otherwise the unit completes exactly when busy with no pending tag, and completion empties Vj and Vk, sets Result and changes no other field; a unit not ready is unchanged |
| Units.WaitingOn | tomasulo.js:279-284 | as written: false whenever either tag is null; with both tags set, true exactly when one of them names the unit |
| Units.WaitingOnMissesSingleTag | tomasulo.js:279-284 | a unit with Qj naming `t` and Qk null is not reported as waiting on `t`, although a broadcast of `t` changes it |
| Units.WaitingOnIntendedMatchesResolve | tomasulo.js:278-295 | the intended test holds exactly when a broadcast of the unit changes the waiting unit, and the test as written implies it |
| Units.Resolve | tomasulo.js:285-295 | each tag naming the broadcast unit is emptied and its V field marked present; other tags and all other fields are kept; no tag names the unit afterwards |
| Units.Clear | tomasulo.js:296-306 | the unit keeps its kind and name and is idle with every field empty, except that A is null, so it differs from a freshly built unit |
| Units.ReusedLoadSkipsAddressStep | tomasulo.js:259-299 | a Load issued to a fresh unit first computes its address; one issued to a cleared unit does not |
| Stations.InitialUnits | tomasulo.js:352-371 | the pool holds nine units, all idle and empty as built |
| Stations.InitialInventory | tomasulo.js:366-371 | the pool is Load0, Load1, Add0, Add1, Add2, Mult0, Mult1, Store0, Store1 in that order |
| Stations.FirstFree | tomasulo.js:374-378 | the unit found is free and of the kind and every earlier unit of the kind is busy; with none found all units of the kind are busy |
| Stations.Issue | tomasulo.js:373-381 | nothing changes and no unit is returned exactly when every unit of the kind is busy; otherwise the lowest free unit of the kind takes the instruction, every other unit is unchanged, and a missing register is an error |
| Stations.Broadcast | tomasulo.js:396-398 | after the broadcast of a unit no unit waits on it: each tag that named it is emptied with its operand marked present, while tags naming other units and every non-operand field are kept |
| Stations.WriteBack | tomasulo.js:392-401 | an idle unit is an error; otherwise every other unit resolves it, it is cleared, no unit tag names it, the status slots that named it are emptied and every other slot is unchanged |
| Scheduler.Start | tomasulo.js:499-504 | after loading, the pool is exactly the nine freshly built stations (Load0-1, Add0-2, Mult0-1, Store0-1, as `Stations.InitialInventory` lists them), so no unit is busy or holds an instruction, every status slot is empty, and the log holds one row per program instruction, in order, none issued and none holding a unit |
| Scheduler.IssueInstruction | tomasulo.js:471-478 | a fault of the pool (an unknown wanted register) is passed on; on a reservation the destination slot names the reserved unit whatever it held, a Store's base register included; when no unit is free nothing changes |
| Scheduler.ExecuteInstruction | tomasulo.js:479-485 | a null unit is an error; the row is marked executed exactly when the unit reports completion, and only that unit changes |
| Scheduler.WriteResult | tomasulo.js:486-497 | a null or idle unit is an error; otherwise the pool writes it back and every slot naming it ends empty while every other slot is kept |
| Scheduler.AdvanceForwardOnly | tomasulo.js:526-541 | a click changes only its own row, sets only the next phase flag and never clears one, leaves a finished row's machine untouched, marks Execute only on completion; conversely a successful click on an executed row always marks Write result, on an issued row marks Execute exactly when the held unit completes, and on a waiting row marks Issue exactly when a unit was reserved |
| Scheduler.OnlyWriteResultFreesUnits | tomasulo.js:373-401 | a busy unit becomes free only through the Write-result click of the row holding it, and unit kinds never change |
| Scheduler.StructuralHazardPersists | tomasulo.js:373-381 | while every unit of a kind is busy an issue of that kind changes nothing, and every click other than a write-back keeps those units busy |
| Scheduler.StartConsistent | tomasulo.js:350-371 | a freshly loaded program whose names all have status slots satisfies the scheduling invariant |
| Scheduler.AdvancePreserves | tomasulo.js:526-541 | under the invariant every click succeeds and keeps the invariant: every tag names a busy unit, no unit waits on itself, an idle unit holds no tag, and each row between Issue and Write result owns its own busy unit |
| Scheduler.Run | tomasulo.js:526-541 | any sequence of clicks on a consistent machine raises no exception and ends consistent |
| Scenarios.ProgramAssembles | tomasulo.js:600-603 | the program lines `LD F6,R2,32`, `LD F2,R3,44`, `MULD F0,F2,F4` and `ADDD F10,F12,F8` assemble to the expected records |
| Scenarios.MultiplyWaits | tomasulo.js:259-276 | clicking Execute on the multiply while its Qj still names Load0 changes no unit and does not mark the row executed |
| Scenarios.RenamingIssues | tomasulo.js:471-478 | loading `L.D F2,44(R3)` and `MUL.D F0,F2,F4` and clicking each once: Load0 claims F2, the multiply issues to Mult0 with Qj naming Load0, and F0's slot names Mult0 |
| Scenarios.RenamingStalls | tomasulo.js:259-276 | clicking the multiply does nothing while Load0 first computes its address and then executes |
| Scenarios.RenamingResolves | tomasulo.js:392-401 | Load0's write-back empties the multiply's Qj, marks Vj present, frees Load0 and F2 but leaves F0 naming Mult0, and the multiply then executes |

## Left out

- The page: tables, cells, highlighting, hover handlers, jQuery and the
  DOM. A row's phase flags stand for the cell texts `'true'`.
- `Function.prototype.curry`: the assembler table is modelled by what each
  curried entry builds.
- `Register.value`: it is never read or written by the core.
- `ReservationStation.each` and `registerStatus.each`: generators used only
  for iteration; the model iterates the sequence or map directly.
- The scrub in `clear` is modelled as intended, emptying every slot that
  names the unit. The code hands a generator to Underscore's `_.each`,
  which does not iterate generators, so as written the scrub may visit no
  slot. Status-level `writeResult` still empties the row's own destination
  slot, which is the slot the scrub usually matters for.
- State after an exception: a fault is returned as `Err` and the partly
  updated state the JavaScript leaves behind (for instance a unit already
  reserved when the destination lookup then throws) is not modelled.
- Operand shapes: the JavaScript takes any arguments; the model takes a
  typed register or immediate operand list, and a shape that does not match
  the key is `MalformedCall`.
- Offsets are integers; JavaScript numbers with fractions are not
  modelled, and `Strings.IntToString` prints every integer in plain
  decimal, while JavaScript switches to exponent notation from 10^21 on.
- The `toString` of units, status slots and the log row cells.
- `writeResult`'s `executionUnit = null` assigns a parameter and the click
  handler sets an unused property, so a row keeps its unit after writing;
  the model keeps it too.
- Registers.RegisterNames: ensures only the length; the names are stated by
  `Registers.RegisterNamesDistinct` and its definition.

## Findings

| source | as written | input that shows it | evidently intended | confidence | as-written member | corrected member |
|---|---|---|---|---|---|---|
| tomasulo.js:62-68 | a negative offset is printed after the separator `' - '` with its own minus sign | `Address('R1', -8)` prints `Regs[R1] - -8` | `Regs[R1] - 8`: the separator carries the sign and the magnitude follows | high, not executed | Addresses.AsWrittenNegativeOffsetDoesNotRoundTrip | Addresses.DisplayTextRoundTrip |
| tomasulo.js:279-284 | `waitingOn` returns false when either tag is null | a unit with Qj naming Load0 and Qk null is not waiting on Load0 | true when either tag names the unit, as the comment above it says | high, not executed | Units.WaitingOnMissesSingleTag | Units.WaitingOnIntendedMatchesResolve |

The core calls neither `Address.toString` on a negative offset nor
`waitingOn`, so both corrections leave the scheduling behaviour unchanged.

=== FILE: address.dfy ===
/** Symbolic memory addresses `Regs[base] + offset`, as the units display
    them in their Vj, Vk and A fields. */
module Addresses {
  import opened Wrappers
  import Strings
  import Registers

  /** `Address(register, offset)`; the offset is absent for a plain
      register reference. */
  datatype Address = Address(register: string, offset: Option<int>)

  /** `toString` as written: the separator is chosen by the sign, and then
      the offset is printed with its own sign as well. */
  function AsWrittenText(a: Address): string
  {
    match a.offset
    case None => "Regs[" + a.register + "]"
    case Some(off) =>
      "Regs[" + a.register + "]" + (if off < 0 then " - " else " + ") + Strings.IntToString(off)
  }

  /** `toString` as evidently intended: the separator carries the sign and
      the magnitude follows it. */
  function DisplayText(a: Address): string
  {
    "Regs[" + a.register + "]" + OffsetText(a.offset)
  }

  /** The part of the intended text after the register: nothing, ` + n` or
      ` - n`. */
  function OffsetText(offset: Option<int>): string
  {
    match offset
    case None => ""
    case Some(off) => if off < 0 then " - " + Strings.NatToString(-off) else " + " + Strings.NatToString(off)
  }

  /** Reads `Regs[r]`, `Regs[r] + n` or `Regs[r] - n` back into an address. */
  function Parse(s: string): Option<Address>
  {
    if |s| < 5 || s[..5] != "Regs[" then None
    else
      var rest := s[5..];
      match Strings.IndexOf(rest, ']')
      case None => None
      case Some(k) => ParseOffset(rest[..k], rest[k + 1..])
  }

  /** Reads what follows `Regs[register]`: nothing, ` + n` or ` - n`. */
  function ParseOffset(register: string, tail: string): Option<Address>
  {
    if tail == "" then Some(Address(register, None))
    else if |tail| >= 3 && tail[..3] == " + " then
      match Strings.ParseDigits(tail[3..])
      case None => None
      case Some(n) => Some(Address(register, Some(n)))
    else if |tail| >= 3 && tail[..3] == " - " then
      match Strings.ParseDigits(tail[3..])
      case None => None
      case Some(n) => Some(Address(register, Some(-(n as int))))
    else None
  }

  /** The two renderings agree except on negative offsets. */
  lemma AsWrittenAgreesOffNegatives(a: Address)
    requires a.offset.None? || a.offset.value >= 0
    ensures AsWrittenText(a) == DisplayText(a)
  {
  }

  /** Parsing finds the register between `Regs[` and the first `]`. */
  lemma ParseSplitsHeader(register: string, tail: string)
    requires Strings.Avoids(register, ']')
    ensures Parse("Regs[" + register + "]" + tail) == ParseOffset(register, tail)
  {
    var s := "Regs[" + register + "]" + tail;
    assert s[..5] == "Regs[";
    assert s[5..] == register + "]" + tail;
    Strings.IndexOfAfter(register, ']', tail);
  }

  /** The text of an offset after the register reads back as that offset. */
  lemma OffsetTextRoundTrip(register: string, offset: Option<int>)
    ensures ParseOffset(register, OffsetText(offset)) == Some(Address(register, offset))
  {
    if offset.Some? {
      var off := offset.value;
      var sep := if off < 0 then " - " else " + ";
      var magnitude: nat := if off < 0 then -off else off;
      var tail := OffsetText(offset);
      assert tail == sep + Strings.NatToString(magnitude);
      assert tail[..3] == sep && tail[3..] == Strings.NatToString(magnitude);
      Strings.ParseNatToString(magnitude);
    }
  }

  /** Every address whose register has no `]` is read back from its intended
      text. */
  lemma DisplayTextRoundTrip(a: Address)
    requires Strings.Avoids(a.register, ']')
    ensures Parse(DisplayText(a)) == Some(a)
  {
    ParseSplitsHeader(a.register, OffsetText(a.offset));
    OffsetTextRoundTrip(a.register, a.offset);
  }

  /** The intended text of an address over any name with a status slot,
      as every address a unit holds is, reads back as that address. */
  lemma SlotAddressRoundTrip(a: Address)
    requires Registers.HasSlot(a.register)
    ensures Parse(DisplayText(a)) == Some(a)
  {
    Registers.SlotNamesAvoid(a.register, ']');
    DisplayTextRoundTrip(a);
  }

  /** The text as written of a negative offset carries two minus signs and
      does not read back as the address it came from. */
  lemma AsWrittenNegativeOffsetDoesNotRoundTrip(a: Address)
    requires Strings.Avoids(a.register, ']')
    requires a.offset.Some? && a.offset.value < 0
    ensures Parse(AsWrittenText(a)) != Some(a)
  {
    var tail := " - " + Strings.IntToString(a.offset.value);
    ParseSplitsHeader(a.register, tail);
    assert AsWrittenText(a) == "Regs[" + a.register + "]" + tail;
    assert tail[..3] == " - " && tail[3..] == Strings.IntToString(a.offset.value);
    Strings.ParseDigitsRejectsNonDigitHead(tail[3..]);
  }

  /** The address of `Address('R1', -8)` as written. */
  lemma AsWrittenDoubleMinusExample()
    ensures AsWrittenText(Address("R1", Some(-8))) == "Regs[R1] - -8"
    ensures DisplayText(Address("R1", Some(-8))) == "Regs[R1] - 8"
  {
  }
}

=== FILE: instructions.dfy ===
/** The assembler: the mnemonic table, the two instruction shapes with their
    text, operand requests (`wants`) and destination, and a reader of that
    text used to state the round trip. */
module Instructions {
  import opened Wrappers
  import opened Faults
  import Strings
  import Registers

  /** The four kinds of execution unit, and so of instruction. */
  datatype UnitKind = Load | Add | Mult | Store

  /** The keys of the assembler object. */
  datatype Mnemonic = LD | SUBD | ADDD | MULD | DIVD | SD

  function Key(m: Mnemonic): string
  {
    match m
    case LD => "LD"
    case SUBD => "SUBD"
    case ADDD => "ADDD"
    case MULD => "MULD"
    case DIVD => "DIVD"
    case SD => "SD"
  }

  /** The operation text each key curries into its constructor. */
  function OpText(m: Mnemonic): string
  {
    match m
    case LD => "L.D"
    case SUBD => "SUB.D"
    case ADDD => "ADD.D"
    case MULD => "MUL.D"
    case DIVD => "DIV.D"
    case SD => "S.D"
  }

  /** The unit kind each key curries into its constructor. */
  function KindOf(m: Mnemonic): UnitKind
  {
    match m
    case LD => Load
    case SUBD => Add
    case ADDD => Add
    case MULD => Mult
    case DIVD => Mult
    case SD => Store
  }

  /** Keys built on `IINST` (immediate form); the others use `RINST`. */
  predicate Immediate(m: Mnemonic)
  {
    m == LD || m == SD
  }

  /** `asm[key]`: the mnemonic under a key, `None` where the object has no
      such property. */
  function Lookup(key: string): (r: Option<Mnemonic>)
    ensures r.Some? ==> Key(r.value) == key
    ensures forall m: Mnemonic :: Key(m) == key ==> r == Some(m)
  {
    if key == "LD" then Some(LD)
    else if key == "SUBD" then Some(SUBD)
    else if key == "ADDD" then Some(ADDD)
    else if key == "MULD" then Some(MULD)
    else if key == "DIVD" then Some(DIVD)
    else if key == "SD" then Some(SD)
    else None
  }

  /** Reverse of `OpText`, for reading instruction text. */
  function MnemonicOfOp(op: string): (r: Option<Mnemonic>)
    ensures r.Some? ==> OpText(r.value) == op
    ensures forall m: Mnemonic :: OpText(m) == op ==> r == Some(m)
  {
    if op == "L.D" then Some(LD)
    else if op == "SUB.D" then Some(SUBD)
    else if op == "ADD.D" then Some(ADDD)
    else if op == "MUL.D" then Some(MULD)
    else if op == "DIV.D" then Some(DIVD)
    else if op == "S.D" then Some(SD)
    else None
  }

  /** The operands of one assembler call: three registers for the register
      form, two registers and an offset for the immediate form. */
  datatype Args =
    | RegArgs(rd: string, rs: string, rt: string)
    | ImmArgs(rd: string, rs: string, offset: int)

  /** An instruction record. For a Store, `rd` and `rs` hold the caller's
      operands swapped: `rd` is the base register and `rs` the value register. */
  datatype Instruction =
    | RInst(op: string, kind: UnitKind, rd: string, rs: string, rt: string)
    | IInst(op: string, kind: UnitKind, rd: string, rs: string, offset: int)
  {
    /** `toString`: `op rd,rs,rt`, `op rd,offset(rs)`, and for a Store the
        caller's order `op value,offset(base)`. */
    function Text(): string
    {
      match this
      case RInst(op, _, rd, rs, rt) => op + " " + rd + "," + rs + "," + rt
      case IInst(op, kind, rd, rs, off) =>
        if kind != Store then op + " " + rd + "," + Strings.IntToString(off) + "(" + rs + ")"
        else op + " " + rs + "," + Strings.IntToString(off) + "(" + rd + ")"
    }

    /** `destination()`: the register whose status slot the instruction
        claims on issue (for a Store, its base register). */
    function Destination(): string
    {
      rd
    }

    /** `wants()`: the registers whose status slots are read on issue, in order. */
    function Wants(): seq<string>
    {
      match this
      case RInst(_, _, _, rs, rt) => [rs, rt]
      case IInst(_, _, _, rs, _) => [rs]
    }

    /** `instruction.offset`, which is undefined on a register-form record. */
    function Offset(): Option<int>
    {
      match this
      case RInst(_, _, _, _, _) => None
      case IInst(_, _, _, _, off) => Some(off)
    }
  }

  /** `asm[key](...)`: looks the key up and builds the record. */
  function Assemble(key: string, args: Args): (r: Result<Instruction, Fault>)
    ensures Lookup(key).None? ==> r == Err(UnknownMnemonic(key))
    ensures Lookup(key).Some? && Immediate(Lookup(key).value) != args.ImmArgs? ==> r == Err(MalformedCall(key))
    ensures r.Ok? ==> Lookup(key).Some? && r.value.op == OpText(Lookup(key).value)
                      && r.value.kind == KindOf(Lookup(key).value)
    ensures r.Ok? && args.RegArgs? ==>
              r.value.Wants() == [args.rs, args.rt] && r.value.Destination() == args.rd && r.value.Offset() == None
    ensures r.Ok? && args.ImmArgs? && r.value.kind != Store ==>
              r.value.Wants() == [args.rs] && r.value.Destination() == args.rd && r.value.Offset() == Some(args.offset)
    ensures r.Ok? && args.ImmArgs? && r.value.kind == Store ==>
              r.value.Wants() == [args.rd] && r.value.Destination() == args.rs && r.value.Offset() == Some(args.offset)
  {
    match Lookup(key)
    case None => Err(UnknownMnemonic(key))
    case Some(m) =>
      match args
      case RegArgs(rd, rs, rt) =>
        if Immediate(m) then Err(MalformedCall(key)) else Ok(RInst(OpText(m), KindOf(m), rd, rs, rt))
      case ImmArgs(rd, rs, off) =>
        if !Immediate(m) then Err(MalformedCall(key))
        else if KindOf(m) == Store then Ok(IInst(OpText(m), KindOf(m), rs, rd, off))
        else Ok(IInst(OpText(m), KindOf(m), rd, rs, off))
  }

  /** Reads instruction text back into the assembler call that produced it. */
  function Parse(text: string): Option<(string, Args)>
  {
    match Strings.IndexOf(text, ' ')
    case None => None
    case Some(k) =>
      match MnemonicOfOp(text[..k])
      case None => None
      case Some(m) =>
        if Immediate(m) then
          match ParseImmediate(text[k + 1..])
          case None => None
          case Some(args) => Some((Key(m), args))
        else
          match ParseRegisters(text[k + 1..])
          case None => None
          case Some(args) => Some((Key(m), args))
  }

  /** Reads `a,b,c`. */
  function ParseRegisters(body: string): Option<Args>
  {
    match Strings.IndexOf(body, ',')
    case None => None
    case Some(i) =>
      var rest := body[i + 1..];
      match Strings.IndexOf(rest, ',')
      case None => None
      case Some(j) => Some(RegArgs(body[..i], rest[..j], rest[j + 1..]))
  }

  /** Reads `a,n(b)`. */
  function ParseImmediate(body: string): Option<Args>
  {
    match Strings.IndexOf(body, ',')
    case None => None
    case Some(i) =>
      var rest := body[i + 1..];
      match Strings.IndexOf(rest, '(')
      case None => None
      case Some(j) =>
        var inner := rest[j + 1..];
        if |inner| == 0 || inner[|inner| - 1] != ')' then None
        else
          match Strings.ParseInt(rest[..j])
          case None => None
          case Some(off) => Some(ImmArgs(body[..i], inner[..|inner| - 1], off))
  }

  /** Register names free of commas: those of the register file. */
  predicate CommaFree(args: Args)
  {
    Strings.Avoids(args.rd, ',') && Strings.Avoids(args.rs, ',')
  }

  lemma ParseRegistersRoundTrip(a: string, b: string, c: string)
    requires Strings.Avoids(a, ',') && Strings.Avoids(b, ',')
    ensures ParseRegisters(a + "," + b + "," + c) == Some(RegArgs(a, b, c))
  {
    var body := a + "," + b + "," + c;
    assert body == a + [','] + (b + "," + c);
    Strings.IndexOfAfter(a, ',', b + "," + c);
    Strings.IndexOfAfter(b, ',', c);
  }

  lemma ParseImmediateRoundTrip(a: string, off: int, b: string)
    requires Strings.Avoids(a, ',')
    ensures ParseImmediate(a + "," + Strings.IntToString(off) + "(" + b + ")") == Some(ImmArgs(a, b, off))
  {
    var n := Strings.IntToString(off);
    var body := a + "," + n + "(" + b + ")";
    assert body == a + [','] + (n + "(" + b + ")");
    Strings.IndexOfAfter(a, ',', n + "(" + b + ")");
    var rest := n + "(" + b + ")";
    assert rest == n + ['('] + (b + ")");
    Strings.IndexOfAfter(n, '(', b + ")");
    var inner := b + ")";
    assert inner[..|inner| - 1] == b;
    Strings.IntToStringRoundTrip(off);
  }

  lemma ParseSplitsOp(m: Mnemonic, body: string)
    ensures Parse(OpText(m) + " " + body) ==
      if Immediate(m) then
        (match ParseImmediate(body) case None => None case Some(args) => Some((Key(m), args)))
      else
        (match ParseRegisters(body) case None => None case Some(args) => Some((Key(m), args)))
  {
    var op := OpText(m);
    assert Strings.Avoids(op, ' ');
    Strings.IndexOfAfter(op, ' ', body);
    assert op + " " + body == op + [' '] + body;
  }

  lemma RegisterTextRoundTrip(m: Mnemonic, rd: string, rs: string, rt: string)
    requires !Immediate(m) && Strings.Avoids(rd, ',') && Strings.Avoids(rs, ',')
    ensures Parse(RInst(OpText(m), KindOf(m), rd, rs, rt).Text()) == Some((Key(m), RegArgs(rd, rs, rt)))
  {
    var body := rd + "," + rs + "," + rt;
    assert RInst(OpText(m), KindOf(m), rd, rs, rt).Text() == OpText(m) + " " + body;
    ParseSplitsOp(m, body);
    ParseRegistersRoundTrip(rd, rs, rt);
  }

  lemma ImmediateTextRoundTrip(m: Mnemonic, rd: string, rs: string, off: int)
    requires Immediate(m) && Strings.Avoids(rd, ',')
    ensures Parse(OpText(m) + " " + rd + "," + Strings.IntToString(off) + "(" + rs + ")") == Some((Key(m), ImmArgs(rd, rs, off)))
  {
    var body := rd + "," + Strings.IntToString(off) + "(" + rs + ")";
    assert OpText(m) + " " + rd + "," + Strings.IntToString(off) + "(" + rs + ")" == OpText(m) + " " + body;
    ParseSplitsOp(m, body);
    ParseImmediateRoundTrip(rd, off, rs);
  }

  /** The text of every assembled instruction reads back as the call that
      built it, so a Store prints its operands in the caller's order
      although the record holds them swapped. */
  lemma TextRoundTrip(key: string, args: Args)
    requires Assemble(key, args).Ok?
    requires CommaFree(args)
    ensures Parse(Assemble(key, args).value.Text()) == Some((key, args))
  {
    var m := Lookup(key).value;
    match args
    case RegArgs(rd, rs, rt) =>
      assert Assemble(key, args).value == RInst(OpText(m), KindOf(m), rd, rs, rt);
      RegisterTextRoundTrip(m, rd, rs, rt);
    case ImmArgs(rd, rs, off) =>
      assert Assemble(key, args).value.Text() == OpText(m) + " " + rd + "," + Strings.IntToString(off) + "(" + rs + ")";
      ImmediateTextRoundTrip(m, rd, rs, off);
  }

  /** Every name with a status slot is free of commas. */
  lemma SlotNamesCommaFree(name: string)
    requires Registers.HasSlot(name)
    ensures Strings.Avoids(name, ',')
  {
    Registers.SlotNamesAvoid(name, ',');
  }

  /** Every instruction the assembler builds over names of the status table
      reads back from its text, so the round trip covers every program over
      the register file. */
  lemma RegisterFileTextRoundTrip(key: string, args: Args)
    requires Assemble(key, args).Ok?
    requires Registers.HasSlot(args.rd) && Registers.HasSlot(args.rs)
    ensures Parse(Assemble(key, args).value.Text()) == Some((key, args))
  {
    SlotNamesCommaFree(args.rd);
    SlotNamesCommaFree(args.rs);
    TextRoundTrip(key, args);
  }

  /** Different calls never print the same text. */
  lemma TextInjective(k1: string, a1: Args, k2: string, a2: Args)
    requires Assemble(k1, a1).Ok? && Assemble(k2, a2).Ok?
    requires CommaFree(a1) && CommaFree(a2)
    requires Assemble(k1, a1).value.Text() == Assemble(k2, a2).value.Text()
    ensures k1 == k2 && a1 == a2 && Assemble(k1, a1) == Assemble(k2, a2)
  {
    TextRoundTrip(k1, a1);
    TextRoundTrip(k2, a2);
  }

  lemma ThirtyTwoText()
    ensures Strings.IntToString(32) == "32"
  {
    assert Strings.NatToString(3) == "3";
  }

  /** The text of the first line of the program the simulator loads. */
  lemma LoadExampleText()
    ensures Assemble("LD", ImmArgs("F6", "R2", 32)).value.Text() == "L.D F6,32(R2)"
  {
    ThirtyTwoText();
    var i := Assemble("LD", ImmArgs("F6", "R2", 32)).value;
    assert i == IInst("L.D", Load, "F6", "R2", 32);
  }

  /** A Store prints in the caller's order, wants its value register and
      claims its base register. */
  lemma StoreExampleText()
    ensures Assemble("SD", ImmArgs("F6", "R2", 32)).value.Text() == "S.D F6,32(R2)"
    ensures Assemble("SD", ImmArgs("F6", "R2", 32)).value.Wants() == ["F6"]
    ensures Assemble("SD", ImmArgs("F6", "R2", 32)).value.Destination() == "R2"
  {
    ThirtyTwoText();
    var i := Assemble("SD", ImmArgs("F6", "R2", 32)).value;
    assert i == IInst("S.D", Store, "R2", "F6", 32);
  }

  lemma DivideExampleText()
    ensures Assemble("DIVD", RegArgs("F10", "F0", "F6")).value.Text() == "DIV.D F10,F0,F6"
  {
    var i := Assemble("DIVD", RegArgs("F10", "F0", "F6")).value;
    assert i == RInst("DIV.D", Mult, "F10", "F0", "F6");
  }
}

=== FILE: registers.dfy ===
/** The register file and the register-status table: one slot per register
    naming the unit (by its index in the pool) that will produce the
    register's next value, or `None` when the register holds its value. */
module Registers {
  import opened Wrappers
  import Strings

  /** A tag is a reference to a unit: its index in the pool's unit sequence. */
  type Tag = nat

  /** Register name to the `Qi` field of that register's status slot. */
  type RegStatus = map<string, Option<Tag>>

  /** `regName`: a register bank letter followed by the index in decimal. */
  function RegName(bank: string, index: nat): string
  {
    bank + Strings.NatToString(index)
  }

  /** F0, F2, ..., F14 (`_.range(0, 16, 2)`) followed by R0, ..., R7. */
  function RegisterNames(): (names: seq<string>)
    ensures |names| == 16
  {
    seq(8, (i: nat) => RegName("F", 2 * i)) + seq(8, (i: nat) => RegName("R", i))
  }

  predicate Known(name: string)
  {
    name in RegisterNames()
  }

  /** The sixteen names are pairwise different, so the status table has one
      slot per register, and none contains a comma. */
  lemma RegisterNamesDistinct()
    ensures forall i, j :: 0 <= i < j < |RegisterNames()| ==> RegisterNames()[i] != RegisterNames()[j]
    ensures forall i :: 0 <= i < |RegisterNames()| ==> Strings.Avoids(RegisterNames()[i], ',')
  {
    var names := RegisterNames();
    forall i, j | 0 <= i < j < |names|
      ensures names[i] != names[j]
    {
      var bi := if i < 8 then "F" else "R";
      var bj := if j < 8 then "F" else "R";
      var ni: nat := if i < 8 then 2 * i else i - 8;
      var nj: nat := if j < 8 then 2 * j else j - 8;
      assert names[i] == bi + Strings.NatToString(ni);
      assert names[j] == bj + Strings.NatToString(nj);
      if names[i] == names[j] {
        assert names[i][0] == bi[0] && names[j][0] == bj[0];
        assert names[i][1..] == Strings.NatToString(ni);
        assert names[j][1..] == Strings.NatToString(nj);
        Strings.NatToStringInjective(ni, nj);
        assert false;
      }
    }
    forall i | 0 <= i < |names|
      ensures Strings.Avoids(names[i], ',')
    {
      var digits := Strings.NatToString(if i < 8 then 2 * i else i - 8);
      assert names[i] == (if i < 8 then "F" else "R") + digits;
    }
  }

  /** The names with a status slot. `RegisterStat` makes one slot for every
      enumerable property of the register-file object, and besides the
      sixteen registers that object holds its `each` generator, a function
      assigned to a property and so named `''`: the table has a seventeenth
      slot under the empty name. */
  predicate HasSlot(name: string)
  {
    Known(name) || name == ""
  }

  /** Every slot of a fresh table is empty, and there is one per register
      and one under the empty name. */
  function InitialStatus(): (rs: RegStatus)
    ensures forall r :: HasSlot(r) <==> r in rs
    ensures forall r :: r in rs ==> rs[r] == None
  {
    map r | r in RegisterNames() + [""] :: None
  }

  /** The shape of a register name: a bank letter followed by decimal
      digits. */
  predicate RegisterShaped(name: string)
  {
    |name| >= 2 && (name[0] == 'F' || name[0] == 'R')
    && forall i :: 1 <= i < |name| ==> '0' <= name[i] <= '9'
  }

  /** The extra slot belongs to no register: every register name is a bank
      letter followed by at least one digit. */
  lemma EmptyNameSlot()
    ensures "" in InitialStatus() && !Known("")
    ensures forall r :: r in InitialStatus() && r != "" ==> RegisterShaped(r)
  {
    var names := RegisterNames();
    forall i | 0 <= i < |names|
      ensures RegisterShaped(names[i])
    {
      var digits := Strings.NatToString(if i < 8 then 2 * i else i - 8);
      assert names[i] == (if i < 8 then "F" else "R") + digits;
    }
  }

  /** No slot name contains a character that is neither a bank letter nor a
      digit, such as the `]` closing an address or the `,` between operands. */
  lemma SlotNamesAvoid(name: string, c: char)
    requires HasSlot(name)
    requires c != 'F' && c != 'R' && !('0' <= c <= '9')
    ensures Strings.Avoids(name, c)
  {
    EmptyNameSlot();
    if name != "" {
      assert RegisterShaped(name);
    }
  }

  /** The scrub in a unit's `clear`: every slot whose `Qi` is unit `t` is
      emptied, and no other slot is touched. */
  function Scrub(rs: RegStatus, t: Tag): (rs': RegStatus)
    ensures rs'.Keys == rs.Keys
    ensures forall r :: r in rs' ==> rs'[r] != Some(t)
    ensures forall r :: r in rs && rs[r] != Some(t) ==> rs'[r] == rs[r]
    ensures forall r :: r in rs && rs[r] == Some(t) ==> rs'[r] == None
  {
    map r | r in rs :: if rs[r] == Some(t) then None else rs[r]
  }
}

=== FILE: scenarios.dfy ===
/** Concrete runs of the simulator on short programs. */
module Scenarios {
  import opened Wrappers
  import opened Registers
  import opened Instructions
  import opened Units
  import opened Scheduler
  import Stations
  import Strings

  function LoadF6(): Instruction { IInst("L.D", Load, "F6", "R2", 32) }
  function LoadF2(): Instruction { IInst("L.D", Load, "F2", "R3", 44) }
  function MulF0(): Instruction { RInst("MUL.D", Mult, "F0", "F2", "F4") }
  function AddF10(): Instruction { RInst("ADD.D", Add, "F10", "F12", "F8") }

  lemma ProgramAssembles()
    ensures Assemble("LD", ImmArgs("F6", "R2", 32)) == Ok(LoadF6())
    ensures Assemble("LD", ImmArgs("F2", "R3", 44)) == Ok(LoadF2())
    ensures Assemble("MULD", RegArgs("F0", "F2", "F4")) == Ok(MulF0())
    ensures Assemble("ADDD", RegArgs("F10", "F12", "F8")) == Ok(AddF10())
  {
  }

  lemma ScenarioNamesKnown()
    ensures Known("F0") && Known("F2") && Known("F4") && Known("F6") && Known("F8")
    ensures Known("F10") && Known("F12") && Known("R2") && Known("R3")
  {
    var names := RegisterNames();
    assert names[0] == "F0" && names[1] == "F2" && names[2] == "F4" && names[3] == "F6" && names[4] == "F8";
    assert names[5] == "F10" by {
      assert Strings.NatToString(10) == "10";
    }
    assert names[6] == "F12" by {
      assert Strings.NatToString(12) == "12";
    }
    assert names[10] == "R2" && names[11] == "R3";
  }

  function U0(): seq<Unit>
  {
    [Fresh(Load, "Load0"), Fresh(Load, "Load1"),
     Fresh(Add, "Add0"), Fresh(Add, "Add1"), Fresh(Add, "Add2"),
     Fresh(Mult, "Mult0"), Fresh(Mult, "Mult1"),
     Fresh(Store, "Store0"), Fresh(Store, "Store1")]
  }

  /** Load0 right after issuing `L.D F2,44(R3)`: R3 is ready, so its
      reference lands in Vk. */
  function Load0Issued(): Unit
  {
    Fresh(Load, "Load0").(busy := true, op := Some("L.D"), instr := Some(LoadF2()),
                          vk := Value(Addresses.Address("R3", None)))
  }

  /** Mult0 right after issuing `MUL.D F0,F2,F4` behind the load of F2. */
  function Mult0Issued(): Unit
  {
    Fresh(Mult, "Mult0").(busy := true, op := Some("MUL.D"), instr := Some(MulF0()),
                          qj := Some(0), vk := Value(Addresses.Address("F4", None)))
  }

  /** Load0 after its address step. */
  function Load0Addressed(): Unit
  {
    Load0Issued().(a := Computed(Addresses.Address("R3", Some(44))))
  }

  /** Load0 after it has executed. */
  function Load0Done(): Unit
  {
    Load0Addressed().(vj := NoValue, vk := NoValue, result := true)
  }

  /** Mult0 after Load0's broadcast. */
  function Mult0Resolved(): Unit
  {
    Mult0Issued().(qj := None, vj := Resolved)
  }

  // States carry the number of the click that produces them: click 3 finds the
  // multiply's F2 operand still pending and leaves M2 as it was, so there is no M3.
  function U1(): seq<Unit> { U0()[0 := Load0Issued()] }
  function U2(): seq<Unit> { U1()[5 := Mult0Issued()] }
  function U4(): seq<Unit> { U2()[0 := Load0Addressed()] }
  function U5(): seq<Unit> { U2()[0 := Load0Done()] }
  function U6(): seq<Unit> { U0()[5 := Mult0Resolved()][0 := Clear(Load0Done())] }

  function R1(): RegStatus { InitialStatus()["F2" := Some(0)] }
  function R2(): RegStatus { R1()["F0" := Some(5)] }
  function R6(): RegStatus { R2()["F2" := None] }

  function M0(): Machine { Machine(U0(), InitialStatus(), [Waiting(LoadF2()), Waiting(MulF0())]) }
  function M1(): Machine { Machine(U1(), R1(), [Entry(LoadF2(), true, false, false, Some(0)), Waiting(MulF0())]) }
  function M2(): Machine
  {
    Machine(U2(), R2(), [Entry(LoadF2(), true, false, false, Some(0)), Entry(MulF0(), true, false, false, Some(5))])
  }
  function M4(): Machine { M2().(units := U4()) }
  function M5(): Machine
  {
    Machine(U5(), R2(), [Entry(LoadF2(), true, true, false, Some(0)), Entry(MulF0(), true, false, false, Some(5))])
  }
  function M6(): Machine
  {
    Machine(U6(), R6(), [Entry(LoadF2(), true, true, true, Some(0)), Entry(MulF0(), true, false, false, Some(5))])
  }

  lemma StartsAtM0()
    ensures Start([LoadF2(), MulF0()]) == M0()
  {
    Stations.InitialInventory();
  }

  lemma IssueClick(m: Machine, i: nat, units: seq<Unit>, regs: RegStatus, t: Tag)
    requires i < |m.log| && !m.log[i].wrote && !m.log[i].executed && !m.log[i].issued && m.log[i].unit.None?
    requires IssueInstruction(m.units, m.regs, m.log[i].instr) == Ok((units, regs, Some(t)))
    ensures Advance(m, i) == Ok(Machine(units, regs, m.log[i := m.log[i].(issued := true, unit := Some(t))]))
  {
  }

  lemma ExecuteClick(m: Machine, i: nat, units: seq<Unit>, done: bool)
    requires i < |m.log| && !m.log[i].wrote && !m.log[i].executed && m.log[i].issued
    requires m.log[i].unit.Some? && m.log[i].unit.value < |m.units|
    requires ExecuteInstruction(m.units, m.log[i].unit) == Ok((units, done))
    ensures Advance(m, i) == Ok(m.(units := units, log := m.log[i := m.log[i].(executed := done)]))
  {
  }

  lemma WriteClick(m: Machine, i: nat, units: seq<Unit>, regs: RegStatus)
    requires i < |m.log| && !m.log[i].wrote && m.log[i].executed
    requires m.log[i].unit.Some? && m.log[i].unit.value < |m.units|
    requires WriteResult(m.units, m.regs, m.log[i].unit, m.log[i].instr) == Ok((units, regs))
    ensures Advance(m, i) == Ok(Machine(units, regs, m.log[i := m.log[i].(wrote := true)]))
  {
  }

  lemma Step1Reserves()
    ensures Stations.Issue(U0(), LoadF2(), InitialStatus()) == Ok((U1(), Some(0)))
  {
    ScenarioNamesKnown();
    assert Stations.FirstFree(U0(), Load, 0) == Some(0);
    Step1Binds();
  }

  lemma Step1Binds()
    ensures Units.BindSources(Fresh(Load, "Load0").(busy := true, op := Some("L.D"), instr := Some(LoadF2())),
                              ["R3"], InitialStatus()) == Ok(Load0Issued())
  {
    ScenarioNamesKnown();
  }

  lemma Step1IssuesLoad()
    ensures Advance(M0(), 0) == Ok(M1())
  {
    Step1Claims();
    IssueClick(M0(), 0, U1(), R1(), 0);
    assert M0().log[0 := M0().log[0].(issued := true, unit := Some(0))] == M1().log;
  }

  lemma Step1Claims()
    ensures IssueInstruction(U0(), InitialStatus(), LoadF2()) == Ok((U1(), R1(), Some(0)))
  {
    ScenarioNamesKnown();
    Step1Reserves();
  }

  lemma Step2Binds()
    ensures Units.BindSources(Fresh(Mult, "Mult0").(busy := true, op := Some("MUL.D"), instr := Some(MulF0())),
                              ["F2", "F4"], R1()) == Ok(Mult0Issued())
  {
    ScenarioNamesKnown();
    var reserved := Fresh(Mult, "Mult0").(busy := true, op := Some("MUL.D"), instr := Some(MulF0()));
    assert R1()["F2"] == Some(0) && R1()["F4"] == None;
    var first := reserved.(qj := Some(0));
    assert Units.GetSource(reserved, "F2", Some(0)) == first;
    assert Units.GetSource(first, "F4", None) == Mult0Issued();
    assert ["F2", "F4"][1..] == ["F4"];
  }

  lemma Step2Reserves()
    ensures Stations.Issue(U1(), MulF0(), R1()) == Ok((U2(), Some(5)))
  {
    assert Stations.FirstFree(U1(), Mult, 0) == Some(5);
    Step2Binds();
  }

  lemma Step2IssuesMultiply()
    ensures Advance(M1(), 1) == Ok(M2())
  {
    Step2Claims();
    IssueClick(M1(), 1, U2(), R2(), 5);
    assert M1().log[1 := M1().log[1].(issued := true, unit := Some(5))] == M2().log;
  }

  lemma Step2Claims()
    ensures IssueInstruction(U1(), R1(), MulF0()) == Ok((U2(), R2(), Some(5)))
  {
    ScenarioNamesKnown();
    Step2Reserves();
  }

  /** Executing Mult0 while Qj is pending leaves the pool unchanged. */
  lemma MultiplyWaits(units: seq<Unit>)
    requires |units| == 9 && units[5] == Mult0Issued()
    ensures ExecuteInstruction(units, Some(5)) == Ok((units, false))
  {
    assert Units.Execute(Mult0Issued()) == Ok((Mult0Issued(), NotReady));
    assert units[5 := Mult0Issued()] == units;
  }

  lemma Step3MultiplyNotReady()
    ensures Advance(M2(), 1) == Ok(M2())
  {
    MultiplyWaits(U2());
    assert M2().log[1 := M2().log[1].(executed := false)] == M2().log;
  }

  lemma Step4LoadAddress()
    ensures Advance(M2(), 0) == Ok(M4())
  {
    assert Units.Execute(Load0Issued()) == Ok((Load0Addressed(), AddressStep));
    assert ExecuteInstruction(U2(), Some(0)) == Ok((U4(), false));
    assert M2().log[0 := M2().log[0].(executed := false)] == M2().log;
  }

  lemma Step5LoadExecutes()
    ensures Advance(M4(), 0) == Ok(M5())
  {
    assert Units.Execute(Load0Addressed()) == Ok((Load0Done(), Completed));
    assert U4()[0 := Load0Done()] == U5();
    assert ExecuteInstruction(U4(), Some(0)) == Ok((U5(), true));
    ExecuteClick(M4(), 0, U5(), true);
    assert M4().log[0 := M4().log[0].(executed := true)] == M5().log;
  }

  lemma Step6Broadcast()
    ensures var resolved := Stations.Broadcast(U5(), 0); resolved[0 := Clear(resolved[0])] == U6()
  {
    var resolved := Stations.Broadcast(U5(), 0);
    forall j | 0 <= j < 9
      ensures resolved[j] == (if j == 5 then Mult0Resolved() else U5()[j])
    {
    }
  }

  lemma Step6Scrub()
    ensures Scrub(R2(), 0) == R6()
  {
    ScenarioNamesKnown();
    var scrubbed := Scrub(R2(), 0);
    forall r | r in R2()
      ensures scrubbed[r] == R6()[r]
    {
    }
  }

  lemma Step6LoadWritesBack()
    ensures Advance(M5(), 0) == Ok(M6())
  {
    Step6Claims();
    WriteClick(M5(), 0, U6(), R6());
    assert M5().log[0 := M5().log[0].(wrote := true)] == M6().log;
  }

  lemma Step6Claims()
    ensures WriteResult(U5(), R2(), Some(0), LoadF2()) == Ok((U6(), R6()))
  {
    ScenarioNamesKnown();
    Step6Broadcast();
    Step6Scrub();
    assert Stations.WriteBack(U5(), R2(), 0) == Ok((U6(), R6()));
  }

  lemma Step7MultiplyExecutes()
    ensures Advance(M6(), 1).Ok? && Advance(M6(), 1).value.log[1].executed
  {
    assert Units.Execute(Mult0Resolved()).value.1 == Completed;
    assert ExecuteInstruction(U6(), Some(5)).value.1;
  }

  // `L.D F2,44(R3)` then `MUL.D F0,F2,F4`, clicked in turn, in three parts.

  /** Both rows issue: Mult0 (unit 5) waits on Load0 (unit 0), the producer
      of F2, and F0's slot names Mult0. */
  lemma RenamingIssues()
    ensures Start([LoadF2(), MulF0()]) == M0()
    ensures Advance(M0(), 0) == Ok(M1()) && Advance(M1(), 1) == Ok(M2())
    ensures M2().units[5].qj == Some(0) && M2().units[5].qk.None?
    ensures M2().regs["F0"] == Some(5) && M2().regs["F2"] == Some(0)
  {
    ScenarioNamesKnown();
    StartsAtM0();
    Step1IssuesLoad();
    Step2IssuesMultiply();
  }

  /** Mult0 is not ready while Load0 computes its address and executes. */
  lemma RenamingStalls()
    ensures Advance(M2(), 1) == Ok(M2())
    ensures Advance(M2(), 0) == Ok(M4()) && Advance(M4(), 1) == Ok(M4())
    ensures Advance(M4(), 0) == Ok(M5()) && Advance(M5(), 1) == Ok(M5())
  {
    Step3MultiplyNotReady();
    Step4LoadAddress();
    MultiplyWaits(U4());
    assert M4().log[1 := M4().log[1].(executed := false)] == M4().log;
    Step5LoadExecutes();
    MultiplyWaits(U5());
    assert M5().log[1 := M5().log[1].(executed := false)] == M5().log;
  }

  /** Load0's write-back resolves Mult0 and frees F2 but not F0, and Mult0
      then executes. */
  lemma RenamingResolves()
    ensures Advance(M5(), 0) == Ok(M6())
    ensures M6().units[5].qj.None? && M6().units[5].vj == Resolved && !M6().units[0].busy
    ensures "F2" in M6().regs && "F0" in M6().regs
    ensures M6().regs["F2"] == None && M6().regs["F0"] == Some(5)
    ensures Advance(M6(), 1).Ok? && Advance(M6(), 1).value.log[1].executed
  {
    ScenarioNamesKnown();
    Step6LoadWritesBack();
    Step7MultiplyExecutes();
  }
}

=== FILE: scheduler.dfy ===
/** The instruction-status log: each instruction of the program with its
    three phase flags (Issue, Execute, Write result) and the unit it holds,
    advanced one phase per click. */
module Scheduler {
  import opened Wrappers
  import opened Faults
  import opened Registers
  import opened Instructions
  import opened Units
  import Stations

  /** One row of the instruction-status table. `unit` is the closure's
      `executionUnit` variable. */
  datatype Entry = Entry(instr: Instruction, issued: bool, executed: bool, wrote: bool, unit: Option<Tag>)

  /** The whole simulation: the pool, the register-status table and the log. */
  datatype Machine = Machine(units: seq<Unit>, regs: RegStatus, log: seq<Entry>)

  function Waiting(instr: Instruction): Entry
  {
    Entry(instr, false, false, false, None)
  }

  /** The page after load: the initial pool and status table, and one waiting
      row per instruction in program order. */
  function Start(program: seq<Instruction>): (m: Machine)
    ensures m.units == Stations.InitialUnits()
    ensures |m.units| == 9 && forall j :: 0 <= j < |m.units| ==> !m.units[j].busy && m.units[j].instr.None?
    ensures forall r :: r in m.regs ==> m.regs[r].None?
    ensures forall r :: HasSlot(r) <==> r in m.regs
    ensures |m.log| == |program|
    ensures forall i :: 0 <= i < |program| ==>
              m.log[i].instr == program[i] && !m.log[i].issued && !m.log[i].executed && !m.log[i].wrote && m.log[i].unit.None?
  {
    Machine(Stations.InitialUnits(), InitialStatus(), seq(|program|, (i: nat) requires i < |program| => Waiting(program[i])))
  }

  /** InstructionStatus `issue`: on a reservation the destination slot is
      set to the reserved unit, whatever it held before (for a Store this is
      its base register); when no unit is free no tag changes. */
  function IssueInstruction(units: seq<Unit>, regs: RegStatus, instr: Instruction)
    : (r: Result<(seq<Unit>, RegStatus, Option<Tag>), Fault>)
    ensures Stations.Issue(units, instr, regs) == Ok((units, None)) ==> r == Ok((units, regs, None))
    ensures Stations.Issue(units, instr, regs).Err? ==> r == Err(Stations.Issue(units, instr, regs).error)
    ensures r.Ok? && r.value.2.None? ==> r.value.0 == units && r.value.1 == regs
    ensures r.Ok? && r.value.2.Some? ==>
      && Stations.Issue(units, instr, regs) == Ok((r.value.0, r.value.2))
      && instr.Destination() in regs
      && r.value.1 == regs[instr.Destination() := r.value.2]
    ensures (Stations.Issue(units, instr, regs).Ok? && Stations.Issue(units, instr, regs).value.1.Some?
             && instr.Destination() !in regs) ==> r == Err(UnknownRegister(instr.Destination()))
  {
    match Stations.Issue(units, instr, regs)
    case Err(f) => Err(f)
    case Ok((units', reserved)) =>
      match reserved
      case None => Ok((units', regs, None))
      case Some(t) =>
        if instr.Destination() !in regs then Err(UnknownRegister(instr.Destination()))
        else Ok((units', regs[instr.Destination() := Some(t)], Some(t)))
  }

  /** InstructionStatus `execute`: runs the held unit and reports whether it
      completed; a Load's address step and a unit not ready do not count. */
  function ExecuteInstruction(units: seq<Unit>, unit: Option<Tag>): (r: Result<(seq<Unit>, bool), Fault>)
    requires unit.Some? ==> unit.value < |units|
    ensures unit.None? ==> r == Err(NoUnit)
    ensures unit.Some? ==> (r.Err? <==> units[unit.value].instr.None?)
    ensures r.Ok? ==>
      && |r.value.0| == |units|
      && (forall j :: 0 <= j < |units| && j != unit.value ==> r.value.0[j] == units[j])
      && Units.Execute(units[unit.value]) == Ok((r.value.0[unit.value], if r.value.1 then Completed else Units.Execute(units[unit.value]).value.1))
      && (r.value.1 <==> Units.Execute(units[unit.value]).value.1 == Completed)
  {
    match unit
    case None => Err(NoUnit)
    case Some(t) =>
      match Units.Execute(units[t])
      case Err(f) => Err(f)
      case Ok((v, outcome)) => Ok((units[t := v], outcome == Completed))
  }

  /** InstructionStatus `writeResult`: the pool writes the unit back; the
      destination slot is then emptied only if it still names that unit, so
      a tag from a later issue to the same register survives. */
  function WriteResult(units: seq<Unit>, regs: RegStatus, unit: Option<Tag>, instr: Instruction)
    : (r: Result<(seq<Unit>, RegStatus), Fault>)
    requires unit.Some? ==> unit.value < |units|
    ensures unit.None? ==> r == Err(NoUnit)
    ensures unit.Some? && !units[unit.value].busy ==> r == Err(WriteBackWithoutInstruction)
    ensures unit.Some? && units[unit.value].busy ==>
              (r.Err? <==> instr.Destination() !in regs)
    ensures r.Ok? ==>
      && Stations.WriteBack(units, regs, unit.value).Ok?
      && r.value.0 == Stations.WriteBack(units, regs, unit.value).value.0
      && r.value.1.Keys == regs.Keys
      && (forall reg :: reg in regs && regs[reg] == unit ==> r.value.1[reg] == None)
      && (forall reg :: reg in regs && regs[reg] != unit ==> r.value.1[reg] == regs[reg])
  {
    match unit
    case None => Err(NoUnit)
    case Some(t) =>
      match Stations.WriteBack(units, regs, t)
      case Err(f) => Err(f)
      case Ok((units', regs')) =>
        var d := instr.Destination();
        if d !in regs' then Err(UnknownRegister(d))
        else if regs'[d] == Some(t) then Ok((units', regs'[d := None]))
        else Ok((units', regs'))
  }

  /** The click handler: a row that has written its result ignores the
      click; otherwise the next phase is attempted, and only an attempt that
      succeeds marks it. */
  function Advance(m: Machine, i: nat): Result<Machine, Fault>
    requires i < |m.log|
    requires m.log[i].unit.Some? ==> m.log[i].unit.value < |m.units|
  {
    var e := m.log[i];
    if e.wrote then Ok(m)
    else if e.executed then
      match WriteResult(m.units, m.regs, e.unit, e.instr)
      case Err(f) => Err(f)
      case Ok((units, regs)) => Ok(Machine(units, regs, m.log[i := e.(wrote := true)]))
    else if e.issued then
      match ExecuteInstruction(m.units, e.unit)
      case Err(f) => Err(f)
      case Ok((units, done)) => Ok(m.(units := units, log := m.log[i := e.(executed := done)]))
    else
      match IssueInstruction(m.units, m.regs, e.instr)
      case Err(f) => Err(f)
      case Ok((units, regs, reserved)) =>
        Ok(Machine(units, regs, m.log[i := e.(issued := reserved.Some?, unit := reserved)]))
  }

  /** Phases move forward only: a click changes one row of the log, sets at
      most the next flag of that row and clears none, leaves a finished row
      and the whole machine untouched, and marks Execute only when the
      held unit reports completion. */
  lemma AdvanceForwardOnly(m: Machine, i: nat)
    requires i < |m.log|
    requires m.log[i].unit.Some? ==> m.log[i].unit.value < |m.units|
    requires Advance(m, i).Ok?
    ensures var m' := Advance(m, i).value;
      var (e, e') := (m.log[i], m'.log[i]);
      && |m'.log| == |m.log|
      && (forall k :: 0 <= k < |m.log| && k != i ==> m'.log[k] == m.log[k])
      && e'.instr == e.instr
      && (e.issued ==> e'.issued) && (e.executed ==> e'.executed) && (e.wrote ==> e'.wrote)
      && (e.wrote ==> m' == m)
      && (e'.issued != e.issued ==> !e.executed && !e.wrote && e'.executed == e.executed && e'.wrote == e.wrote)
      && (e'.executed != e.executed ==> e.issued && !e.wrote && e'.issued == e.issued && e'.wrote == e.wrote)
      && (e'.wrote != e.wrote ==> e.executed && e'.issued == e.issued && e'.executed == e.executed)
      && (e'.executed && !e.executed ==>
            Units.Execute(m.units[e.unit.value]).value.1 == Completed)
      && (!e.wrote && e.executed ==> e'.wrote)
      && (!e.wrote && !e.executed && e.issued ==>
            (e'.executed <==> Units.Execute(m.units[e.unit.value]).value.1 == Completed))
      && (!e.wrote && !e.executed && !e.issued ==>
            (e'.issued <==> IssueInstruction(m.units, m.regs, e.instr).value.2.Some?))
  {
  }

  /** A unit only becomes free through the Write-result phase of the row
      that holds it, so an issue refused for want of a free unit of a kind
      keeps being refused until such a write-back. */
  lemma OnlyWriteResultFreesUnits(m: Machine, i: nat)
    requires i < |m.log|
    requires m.log[i].unit.Some? ==> m.log[i].unit.value < |m.units|
    requires Advance(m, i).Ok?
    ensures |Advance(m, i).value.units| == |m.units|
    ensures forall j :: 0 <= j < |m.units| ==> Advance(m, i).value.units[j].kind == m.units[j].kind
    ensures forall j :: 0 <= j < |m.units| && m.units[j].busy && !Advance(m, i).value.units[j].busy ==>
              m.log[i].executed && !m.log[i].wrote && m.log[i].unit == Some(j)
  {
    var e := m.log[i];
    var m' := Advance(m, i).value;
    if !e.wrote && !e.executed && !e.issued {
      var r := IssueInstruction(m.units, m.regs, e.instr);
      if r.value.2.Some? {
        var t := r.value.2.value;
        assert Stations.Issue(m.units, e.instr, m.regs) == Ok((m'.units, Some(t)));
        assert Units.Issue(m.units[t], e.instr, m.regs) == Ok(Some(m'.units[t]));
      }
    } else if !e.wrote && e.executed {
      var t := e.unit.value;
      forall j | 0 <= j < |m.units| && j != t
        ensures m'.units[j].busy == m.units[j].busy && m'.units[j].kind == m.units[j].kind
      {
        assert m'.units[j] == Resolve(m.units[j], t);
      }
    }
  }

  /** Structural hazard: while every unit of a kind is busy, an issue of
      that kind reserves nothing and changes nothing, and every click other
      than a Write result keeps all those units busy. */
  lemma StructuralHazardPersists(m: Machine, i: nat, instr: Instruction)
    requires i < |m.log|
    requires m.log[i].unit.Some? ==> m.log[i].unit.value < |m.units|
    requires forall j :: 0 <= j < |m.units| && m.units[j].kind == instr.kind ==> m.units[j].busy
    ensures IssueInstruction(m.units, m.regs, instr) == Ok((m.units, m.regs, None))
    ensures Advance(m, i).Ok? && !(m.log[i].executed && !m.log[i].wrote) ==>
              forall j :: 0 <= j < |Advance(m, i).value.units| && Advance(m, i).value.units[j].kind == instr.kind
                ==> Advance(m, i).value.units[j].busy
  {
    if Advance(m, i).Ok? {
      OnlyWriteResultFreesUnits(m, i);
    }
  }

  // ---------------------------------------------------------------------
  // The scheduling invariant.

  /** A tag is empty or names a busy unit of the pool. */
  predicate TagOk(units: seq<Unit>, q: Option<Tag>)
  {
    q.Some? ==> q.value < |units| && units[q.value].busy
  }

  /** Every unit's tags name busy units other than itself, and an idle unit
      holds no tag. */
  predicate UnitsOk(units: seq<Unit>)
  {
    forall j :: 0 <= j < |units| ==>
      && TagOk(units, units[j].qj) && TagOk(units, units[j].qk)
      && units[j].qj != Some(j) && units[j].qk != Some(j)
      && (!units[j].busy ==> units[j].qj.None? && units[j].qk.None?)
  }

  /** Every full status slot names a busy unit. */
  predicate RegsOk(units: seq<Unit>, regs: RegStatus)
  {
    forall r :: r in regs ==> TagOk(units, regs[r])
  }

  /** The row holds its unit between Issue and Write result. */
  predicate Live(e: Entry)
  {
    e.issued && !e.wrote
  }

  predicate EntryOk(units: seq<Unit>, regs: RegStatus, e: Entry)
  {
    && (forall w :: w in e.instr.Wants() ==> w in regs)
    && e.instr.Destination() in regs
    && (e.executed ==> e.issued) && (e.wrote ==> e.executed)
    && (e.issued <==> e.unit.Some?)
    && (e.unit.Some? ==> e.unit.value < |units|)
    && (Live(e) ==> units[e.unit.value].busy && units[e.unit.value].instr == Some(e.instr))
  }

  predicate EntriesOk(units: seq<Unit>, regs: RegStatus, log: seq<Entry>)
  {
    forall i :: 0 <= i < |log| ==> EntryOk(units, regs, log[i])
  }

  /** No two rows hold the same unit. */
  predicate Exclusive(log: seq<Entry>)
  {
    forall i, k :: 0 <= i < |log| && 0 <= k < |log| && i != k && Live(log[i]) && Live(log[k])
      ==> log[i].unit != log[k].unit
  }

  /** What a run driven by clicks maintains: every tag in a unit or in the
      status table names a busy unit, no unit waits on itself, an idle unit
      holds no tag, every row names registers of the table, and each row
      between Issue and Write result owns its own busy unit. */
  predicate Consistent(m: Machine)
  {
    UnitsOk(m.units) && RegsOk(m.units, m.regs) && EntriesOk(m.units, m.regs, m.log) && Exclusive(m.log)
  }

  /** Every name the instruction reads or claims has a status slot. */
  predicate NamesStatusSlots(instr: Instruction)
  {
    (forall w :: w in instr.Wants() ==> HasSlot(w)) && HasSlot(instr.Destination())
  }

  lemma StartConsistent(program: seq<Instruction>)
    requires forall i :: 0 <= i < |program| ==> NamesStatusSlots(program[i])
    ensures Consistent(Start(program))
  {
    var m := Start(program);
    assert UnitsOk(m.units);
    assert RegsOk(m.units, m.regs);
    forall i | 0 <= i < |m.log|
      ensures EntryOk(m.units, m.regs, m.log[i])
    {
      assert NamesStatusSlots(program[i]);
    }
  }

  /** Only a unit's Busy, Op, instruction, A and operand fields change when
      it is issued; a busy unit is never picked. */
  lemma PoolIssueKeepsUnitsOk(units: seq<Unit>, regs: RegStatus, instr: Instruction, units': seq<Unit>, t: Tag)
    requires UnitsOk(units) && RegsOk(units, regs)
    requires Stations.Issue(units, instr, regs) == Ok((units', Some(t)))
    ensures UnitsOk(units') && RegsOk(units', regs)
    ensures t < |units| && !units[t].busy && units'[t].busy && units'[t].instr == Some(instr)
    ensures forall j :: 0 <= j < |units| && j != t ==> units'[j] == units[j]
  {
    var u := units[t];
    var v := units'[t];
    assert Units.Issue(u, instr, regs) == Ok(Some(v));
    forall q | q in regs.Values
      ensures TagOk(units', q) && q != Some(t)
    {
      var reg :| reg in regs && regs[reg] == q;
    }
    forall j | 0 <= j < |units'|
      ensures TagOk(units', units'[j].qj) && TagOk(units', units'[j].qk)
    {
    }
  }

  lemma IssuePreserves(m: Machine, i: nat)
    requires Consistent(m) && i < |m.log| && !m.log[i].issued
    ensures Advance(m, i).Ok? && Consistent(Advance(m, i).value)
  {
    var e := m.log[i];
    assert EntryOk(m.units, m.regs, e);
    var pool := Stations.Issue(m.units, e.instr, m.regs);
    assert pool.Ok?;
    var r := IssueInstruction(m.units, m.regs, e.instr);
    assert r.Ok?;
    var (units', regs', reserved) := r.value;
    var m' := Advance(m, i).value;
    assert m' == Machine(units', regs', m.log[i := e.(issued := reserved.Some?, unit := reserved)]);
    if reserved.Some? {
      var t := reserved.value;
      PoolIssueKeepsUnitsOk(m.units, m.regs, e.instr, units', t);
      assert RegsOk(units', regs');
      forall k | 0 <= k < |m'.log|
        ensures EntryOk(units', regs', m'.log[k])
      {
        if k != i {
          assert EntryOk(m.units, m.regs, m.log[k]);
        }
      }
      forall k, l | 0 <= k < |m'.log| && 0 <= l < |m'.log| && k != l && Live(m'.log[k]) && Live(m'.log[l])
        ensures m'.log[k].unit != m'.log[l].unit
      {
        if k == i {
          assert EntryOk(m.units, m.regs, m.log[l]);
        } else if l == i {
          assert EntryOk(m.units, m.regs, m.log[k]);
        }
      }
    } else {
      assert m' == m;
    }
  }

  lemma ExecutePreserves(m: Machine, i: nat)
    requires Consistent(m) && i < |m.log| && m.log[i].issued && !m.log[i].executed
    ensures Advance(m, i).Ok? && Consistent(Advance(m, i).value)
  {
    var e := m.log[i];
    assert EntryOk(m.units, m.regs, e);
    var t := e.unit.value;
    var r := ExecuteInstruction(m.units, e.unit);
    assert r.Ok?;
    var units' := r.value.0;
    var m' := Advance(m, i).value;
    assert m' == m.(units := units', log := m.log[i := e.(executed := r.value.1)]);
    forall j | 0 <= j < |units'|
      ensures units'[j].busy == m.units[j].busy && units'[j].qj == m.units[j].qj && units'[j].qk == m.units[j].qk
      ensures units'[j].instr == m.units[j].instr
    {
    }
    forall k | 0 <= k < |m'.log|
      ensures EntryOk(units', m.regs, m'.log[k])
    {
      assert EntryOk(m.units, m.regs, m.log[k]);
    }
  }

  /** A write-back leaves every surviving tag pointing at a busy unit. */
  lemma PoolWriteBackKeepsUnitsOk(units: seq<Unit>, regs: RegStatus, t: Tag)
    requires UnitsOk(units) && RegsOk(units, regs) && t < |units| && units[t].busy
    ensures Stations.WriteBack(units, regs, t).Ok?
    ensures var (units', regs') := Stations.WriteBack(units, regs, t).value;
      && UnitsOk(units') && RegsOk(units', regs')
      && (forall j :: 0 <= j < |units| && j != t ==> units'[j].busy == units[j].busy && units'[j].instr == units[j].instr)
  {
    var (units', regs') := Stations.WriteBack(units, regs, t).value;
    forall j | 0 <= j < |units'| && j != t
      ensures units'[j].busy == units[j].busy && units'[j].instr == units[j].instr
    {
      assert units'[j] == Resolve(units[j], t);
    }
    forall j | 0 <= j < |units'|
      ensures TagOk(units', units'[j].qj) && TagOk(units', units'[j].qk)
      ensures units'[j].qj != Some(j) && units'[j].qk != Some(j)
      ensures !units'[j].busy ==> units'[j].qj.None? && units'[j].qk.None?
    {
      if j != t {
        assert units'[j] == Resolve(units[j], t);
      }
    }
    forall reg | reg in regs'
      ensures TagOk(units', regs'[reg])
    {
      assert TagOk(units, regs[reg]);
    }
  }

  lemma WritePreserves(m: Machine, i: nat)
    requires Consistent(m) && i < |m.log| && m.log[i].executed && !m.log[i].wrote
    ensures Advance(m, i).Ok? && Consistent(Advance(m, i).value)
  {
    var e := m.log[i];
    assert EntryOk(m.units, m.regs, e);
    var t := e.unit.value;
    PoolWriteBackKeepsUnitsOk(m.units, m.regs, t);
    var r := WriteResult(m.units, m.regs, e.unit, e.instr);
    assert r.Ok?;
    var (units', regs') := r.value;
    var m' := Advance(m, i).value;
    assert m' == Machine(units', regs', m.log[i := e.(wrote := true)]);
    forall reg | reg in regs'
      ensures TagOk(units', regs'[reg])
    {
      var (_, scrubbed) := Stations.WriteBack(m.units, m.regs, t).value;
      assert reg in scrubbed && TagOk(units', scrubbed[reg]);
    }
    forall k | 0 <= k < |m'.log|
      ensures EntryOk(units', regs', m'.log[k])
    {
      if k != i {
        assert EntryOk(m.units, m.regs, m.log[k]);
      }
    }
  }

  /** Under the invariant a click never raises an exception (no unknown
      register, no null unit, no write-back of an idle unit) and keeps the
      invariant. */
  lemma AdvancePreserves(m: Machine, i: nat)
    requires Consistent(m) && i < |m.log|
    ensures Advance(m, i).Ok?
    ensures Consistent(Advance(m, i).value) && |Advance(m, i).value.log| == |m.log|
  {
    var e := m.log[i];
    assert EntryOk(m.units, m.regs, e);
    if e.wrote {
    } else if e.executed {
      WritePreserves(m, i);
    } else if e.issued {
      ExecutePreserves(m, i);
    } else {
      IssuePreserves(m, i);
    }
  }

  /** The machine after a sequence of clicks on rows of the log. From a
      consistent machine every click succeeds, so the result is a machine
      and not a fault, and it is consistent again. */
  function Run(m: Machine, clicks: seq<nat>): (r: Machine)
    requires Consistent(m)
    requires forall k :: 0 <= k < |clicks| ==> clicks[k] < |m.log|
    ensures Consistent(r) && |r.log| == |m.log|
    decreases |clicks|
  {
    if |clicks| == 0 then m
    else
      AdvancePreserves(m, clicks[0]);
      Run(Advance(m, clicks[0]).value, clicks[1..])
  }
}

=== FILE: stations.dfy ===
/** The reservation-station pool: a fixed, typed inventory of units held in
    one sequence whose indices are the tags. */
module Stations {
  import opened Wrappers
  import opened Faults
  import opened Registers
  import opened Instructions
  import opened Units
  import Strings

  function KindName(kind: UnitKind): string
  {
    match kind
    case Load => "Load"
    case Add => "Add"
    case Mult => "Mult"
    case Store => "Store"
  }

  /** `build_station`: `quantity` fresh units of one kind named by kind and
      number. */
  function BuildStation(kind: UnitKind, quantity: nat): seq<Unit>
  {
    seq(quantity, (i: nat) => Fresh(kind, KindName(kind) + Strings.NatToString(i)))
  }

  /** The inventory in pool order: two Load, three Add, two Mult and two
      Store units. */
  function InitialUnits(): (units: seq<Unit>)
    ensures |units| == 9
    ensures forall j :: 0 <= j < |units| ==> units[j] == Fresh(units[j].kind, units[j].name)
  {
    BuildStation(Load, 2) + BuildStation(Add, 3) + BuildStation(Mult, 2) + BuildStation(Store, 2)
  }

  lemma InitialInventory()
    ensures InitialUnits() == [
      Fresh(Load, "Load0"), Fresh(Load, "Load1"),
      Fresh(Add, "Add0"), Fresh(Add, "Add1"), Fresh(Add, "Add2"),
      Fresh(Mult, "Mult0"), Fresh(Mult, "Mult1"),
      Fresh(Store, "Store0"), Fresh(Store, "Store1")]
  {
    StationNames(Load, ["Load0", "Load1"]);
    StationNames(Add, ["Add0", "Add1", "Add2"]);
    StationNames(Mult, ["Mult0", "Mult1"]);
    StationNames(Store, ["Store0", "Store1"]);
  }

  lemma StationNames(kind: UnitKind, names: seq<string>)
    requires |names| <= 3
    requires forall i :: 0 <= i < |names| ==> names[i] == KindName(kind) + [Strings.Digits[i]]
    ensures BuildStation(kind, |names|) == seq(|names|, (i: nat) requires i < |names| => Fresh(kind, names[i]))
  {
    forall i: nat | i < |names|
      ensures BuildStation(kind, |names|)[i] == Fresh(kind, names[i])
    {
      assert Strings.NatToString(i) == [Strings.Digits[i]];
    }
  }

  /** The first unit at or after `from` of the given kind that is not busy. */
  function FirstFree(units: seq<Unit>, kind: UnitKind, from: nat): (r: Option<Tag>)
    requires from <= |units|
    ensures r.Some? ==> from <= r.value < |units| && units[r.value].kind == kind && !units[r.value].busy
    ensures r.Some? ==> forall j :: from <= j < r.value && units[j].kind == kind ==> units[j].busy
    ensures r.None? ==> forall j :: from <= j < |units| && units[j].kind == kind ==> units[j].busy
    decreases |units| - from
  {
    if from == |units| then None
    else if units[from].kind == kind && !units[from].busy then Some(from)
    else FirstFree(units, kind, from + 1)
  }

  /** Pool `issue`: the lowest-index free unit of the instruction's kind
      takes the instruction; with no free unit of that kind nothing changes
      and no unit is returned. */
  function Issue(units: seq<Unit>, instr: Instruction, regs: RegStatus): (r: Result<(seq<Unit>, Option<Tag>), Fault>)
    ensures (forall j :: 0 <= j < |units| && units[j].kind == instr.kind ==> units[j].busy)
            <==> r == Ok((units, None))
    ensures r.Err? <==>
              (exists j :: 0 <= j < |units| && units[j].kind == instr.kind && !units[j].busy)
              && (exists k :: 0 <= k < |instr.Wants()| && instr.Wants()[k] !in regs)
    ensures r.Ok? && r.value.1.Some? ==>
      var t := r.value.1.value;
      && t < |units| && units[t].kind == instr.kind && !units[t].busy
      && (forall j :: 0 <= j < t && units[j].kind == instr.kind ==> units[j].busy)
      && |r.value.0| == |units|
      && (forall j :: 0 <= j < |units| && j != t ==> r.value.0[j] == units[j])
      && Units.Issue(units[t], instr, regs) == Ok(Some(r.value.0[t]))
  {
    match FirstFree(units, instr.kind, 0)
    case None => Ok((units, None))
    case Some(t) =>
      match Units.Issue(units[t], instr, regs)
      case Err(f) => Err(f)
      case Ok(issued) =>
        assert issued.Some?;
        Ok((units[t := issued.value], Some(t)))
  }

  /** The common data bus: every unit, the producer included, resolves `t`.
      Afterwards no unit waits on `t`; a unit that waited on `t` through a
      tag finds that operand present, and tags naming other units, like
      every field that is no operand, are kept. */
  function Broadcast(units: seq<Unit>, t: Tag): (r: seq<Unit>)
    ensures |r| == |units|
    ensures forall j :: 0 <= j < |r| ==> SameButOperands(units[j], r[j])
    ensures forall j :: 0 <= j < |r| ==> r[j].qj != Some(t) && r[j].qk != Some(t)
    ensures forall j :: 0 <= j < |r| && units[j].qj == Some(t) ==> r[j].qj.None? && r[j].vj == Resolved
    ensures forall j :: 0 <= j < |r| && units[j].qk == Some(t) ==> r[j].qk.None? && r[j].vk == Resolved
    ensures forall j :: 0 <= j < |r| && units[j].qj != Some(t) ==> r[j].qj == units[j].qj && r[j].vj == units[j].vj
    ensures forall j :: 0 <= j < |r| && units[j].qk != Some(t) ==> r[j].qk == units[j].qk && r[j].vk == units[j].vk
  {
    seq(|units|, (j: nat) requires j < |units| => Resolve(units[j], t))
  }

  /** `writeBack`: throws for a unit that is not busy. Otherwise every unit
      resolves the finished unit, which is then cleared and scrubbed from
      the register-status table; afterwards no tag anywhere names it. */
  function WriteBack(units: seq<Unit>, regs: RegStatus, t: Tag): (r: Result<(seq<Unit>, RegStatus), Fault>)
    requires t < |units|
    ensures r.Err? <==> !units[t].busy
    ensures r.Err? ==> r.error == WriteBackWithoutInstruction
    ensures r.Ok? ==>
      var (units', regs') := r.value;
      && |units'| == |units|
      && (forall j :: 0 <= j < |units'| ==> units'[j].qj != Some(t) && units'[j].qk != Some(t))
      && units'[t] == Clear(units[t])
      && (forall j :: 0 <= j < |units| && j != t ==> units'[j] == Resolve(units[j], t))
      && regs'.Keys == regs.Keys
      && (forall reg :: reg in regs' ==> regs'[reg] != Some(t))
      && (forall reg :: reg in regs && regs[reg] == Some(t) ==> regs'[reg] == None)
      && (forall reg :: reg in regs && regs[reg] != Some(t) ==> regs'[reg] == regs[reg])
  {
    if !units[t].busy then Err(WriteBackWithoutInstruction)
    else
      var resolved := Broadcast(units, t);
      Ok((resolved[t := Clear(resolved[t])], Scrub(regs, t)))
  }
}

=== FILE: strings.dfy ===
/** Decimal text of integers as JavaScript's `Number.prototype.toString`
    prints them, a parser that reads it back, and a first-occurrence search. */
module Strings {
  import opened Wrappers

  const Digits: string := "0123456789"

  function DigitChar(d: nat): (c: char)
    requires d < 10
    ensures '0' <= c <= '9'
  {
    Digits[d]
  }

  /** The value of a decimal digit character, `None` for any other character. */
  function DigitValue(c: char): (r: Option<nat>)
    ensures r.Some? <==> '0' <= c <= '9'
    ensures r.Some? ==> r.value < 10 && DigitChar(r.value) == c
  {
    if '0' <= c <= '9' then Some((c as int - '0' as int) as nat) else None
  }

  /** The shortest decimal numeral of `n`. */
  function NatToString(n: nat): (s: string)
    ensures |s| >= 1
    ensures forall i :: 0 <= i < |s| ==> '0' <= s[i] <= '9'
    decreases n
  {
    if n < 10 then [DigitChar(n)] else NatToString(n / 10) + [DigitChar(n % 10)]
  }

  /** `n.toString()` for an integer-valued number of magnitude below 10^21:
      a minus sign before the magnitude when negative. From 10^21 on
      JavaScript prints exponent notation, which this does not model. */
  function IntToString(n: int): (s: string)
    ensures |s| >= 1
    ensures n < 0 <==> s[0] == '-'
    ensures forall i :: 0 < i < |s| ==> '0' <= s[i] <= '9'
  {
    if n < 0 then "-" + NatToString(-n) else NatToString(n)
  }

  /** Reads a non-empty run of decimal digits; `None` on any other text. */
  function ParseDigits(s: string): (r: Option<nat>)
    ensures r.Some? ==> |s| >= 1 && forall i :: 0 <= i < |s| ==> '0' <= s[i] <= '9'
    decreases |s|
  {
    if |s| == 0 then None
    else
      match DigitValue(s[|s| - 1])
      case None => None
      case Some(d) =>
        if |s| == 1 then Some(d)
        else
          match ParseDigits(s[..|s| - 1])
          case None => None
          case Some(p) => Some(p * 10 + d)
  }

  /** Reads an optionally signed decimal numeral. */
  function ParseInt(s: string): Option<int>
  {
    if |s| > 0 && s[0] == '-' then
      match ParseDigits(s[1..])
      case None => None
      case Some(n) => Some(-(n as int))
    else
      match ParseDigits(s)
      case None => None
      case Some(n) => Some(n)
  }

  /** Reading a digit character gives back its digit. */
  lemma DigitRoundTrip(d: nat)
    requires d < 10
    ensures DigitValue(DigitChar(d)) == Some(d)
  {
    assert Digits == ['0', '1', '2', '3', '4', '5', '6', '7', '8', '9'];
  }

  lemma {:induction false} ParseNatToString(n: nat)
    ensures ParseDigits(NatToString(n)) == Some(n)
    decreases n
  {
    var q, d := n / 10, n % 10;
    assert n == q * 10 + d && d < 10;
    DigitRoundTrip(d);
    if n < 10 {
      assert NatToString(n) == [DigitChar(d)];
    } else {
      var prefix := NatToString(q);
      var s := prefix + [DigitChar(d)];
      assert NatToString(n) == s;
      assert s[|s| - 1] == DigitChar(d) && s[..|s| - 1] == prefix && |s| > 1;
      ParseNatToString(q);
      assert ParseDigits(s) == Some(q * 10 + d);
    }
  }

  /** Decimal text of every integer reads back as that integer. */
  lemma IntToStringRoundTrip(n: int)
    ensures ParseInt(IntToString(n)) == Some(n)
  {
    if n < 0 {
      ParseNatToString(-n);
      assert IntToString(n)[1..] == NatToString(-n);
    } else {
      ParseNatToString(n);
    }
  }

  /** Different naturals have different numerals. */
  lemma NatToStringInjective(m: nat, n: nat)
    requires NatToString(m) == NatToString(n)
    ensures m == n
  {
    ParseNatToString(m);
    ParseNatToString(n);
  }

  /** A text whose first character is not a digit is no run of digits. */
  lemma {:induction false} ParseDigitsRejectsNonDigitHead(s: string)
    requires |s| >= 1 && !('0' <= s[0] <= '9')
    ensures ParseDigits(s) == None
  {
  }

  /** Index of the first occurrence of `c` in `s`. */
  function IndexOf(s: string, c: char): (r: Option<nat>)
    ensures r.Some? ==> r.value < |s| && s[r.value] == c
    ensures r.Some? ==> forall j :: 0 <= j < r.value ==> s[j] != c
    ensures r.None? ==> forall j :: 0 <= j < |s| ==> s[j] != c
    decreases |s|
  {
    if |s| == 0 then None
    else if s[0] == c then Some(0)
    else
      match IndexOf(s[1..], c)
      case None => None
      case Some(k) => Some(k + 1)
  }

  /** `c` does not occur in `s`. */
  predicate Avoids(s: string, c: char)
  {
    forall i :: 0 <= i < |s| ==> s[i] != c
  }

  /** In `a + [c] + b` with `c` absent from `a`, the first `c` ends `a`. */
  lemma IndexOfAfter(a: string, c: char, b: string)
    requires Avoids(a, c)
    ensures IndexOf(a + [c] + b, c) == Some(|a|)
    ensures (a + [c] + b)[..|a|] == a && (a + [c] + b)[|a| + 1..] == b
  {
    var s := a + [c] + b;
    assert s[|a|] == c;
  }
}

=== FILE: units.dfy ===
/** One execution unit (a reservation-station row): its fields and the
    operations the unit performs on itself. */
module Units {
  import opened Wrappers
  import opened Faults
  import opened Registers
  import opened Addresses
  import opened Instructions

  /** A Vj/Vk field: null, `true` (resolved by a broadcast) or the register
      reference `Address(name)` bound at issue. */
  datatype Operand = NoValue | Resolved | Value(addr: Address)

  /** The A field: `''` before first use, null after `clear`, or an address. */
  datatype AddressField = Unset | Cleared | Computed(addr: Address)

  /** What `execute` returns: undefined after the Load address step, null
      when the unit cannot run, the unit itself on completion. */
  datatype ExecOutcome = AddressStep | NotReady | Completed

  datatype Unit = Unit(
    kind: UnitKind,
    name: string,
    busy: bool,
    op: Option<string>,
    vj: Operand,
    vk: Operand,
    qj: Option<Tag>,
    qk: Option<Tag>,
    a: AddressField,
    result: bool,
    instr: Option<Instruction>)

  /** A freshly built unit: not busy, every field empty and A set to `''`. */
  function Fresh(kind: UnitKind, name: string): Unit
  {
    Unit(kind, name, false, None, NoValue, NoValue, None, None, Unset, false, None)
  }

  /** JavaScript truthiness of a V field. */
  predicate Present(o: Operand)
  {
    o != NoValue
  }

  /** The fields an operation on operands may change are the only ones that differ. */
  predicate SameButOperands(u: Unit, v: Unit)
  {
    v.(vj := u.vj, vk := u.vk, qj := u.qj, qk := u.qk) == u
  }

  /** `getSource`: binds one wanted register, given its status slot. A full
      slot's producer becomes a pending tag, Qj before Qk; an empty slot's
      register reference goes to Vj only when Vj already holds something,
      and to Vk otherwise. */
  function GetSource(u: Unit, name: string, slot: Option<Tag>): (r: Unit)
    ensures SameButOperands(u, r)
    ensures slot.Some? ==> (r.qj == slot || r.qk == slot) && r.vj == u.vj && r.vk == u.vk
    ensures slot.Some? && u.qj.None? ==> r.qj == slot && r.qk == u.qk
    ensures slot.Some? && u.qj.Some? ==> r.qj == u.qj && r.qk == slot
    ensures slot.None? ==> r.qj == u.qj && r.qk == u.qk
    ensures slot.None? ==> (r.vj == Value(Address(name, None)) || r.vk == Value(Address(name, None)))
    ensures slot.None? && Present(u.vj) ==> r.vj == Value(Address(name, None)) && r.vk == u.vk
    ensures slot.None? && !Present(u.vj) ==> r.vk == Value(Address(name, None)) && r.vj == u.vj
  {
    if slot.Some? && u.qj.Some? then u.(qk := slot)
    else if slot.Some? then u.(qj := slot)
    else if Present(u.vj) then u.(vj := Value(Address(name, None)))
    else u.(vk := Value(Address(name, None)))
  }

  /** The `for (source of wants())` loop of `issue`. A name without a status
      slot aborts with the first such name. */
  function BindSources(u: Unit, wants: seq<string>, regs: RegStatus): (r: Result<Unit, Fault>)
    ensures r.Err? <==> exists k :: 0 <= k < |wants| && wants[k] !in regs
    ensures r.Err? ==> r.error.UnknownRegister? && r.error.name in wants && r.error.name !in regs
    ensures r.Ok? ==> SameButOperands(u, r.value)
    ensures r.Ok? ==> (r.value.qj == u.qj || r.value.qj in regs.Values)
                      && (r.value.qk == u.qk || r.value.qk in regs.Values)
    ensures r.Ok? && |wants| > 0 ==>
              var w := wants[|wants| - 1];
              && w in regs
              && (regs[w].Some? ==> r.value.qj == regs[w] || r.value.qk == regs[w])
              && (regs[w].None? ==> r.value.vj == Value(Address(w, None)) || r.value.vk == Value(Address(w, None)))
    decreases |wants|
  {
    if |wants| == 0 then Ok(u)
    else if wants[0] !in regs then Err(UnknownRegister(wants[0]))
    else
      var r := BindSources(GetSource(u, wants[0], regs[wants[0]]), wants[1..], regs);
      assert r.Err? ==> r.error.name in wants by {
        assert forall w :: w in wants[1..] ==> w in wants;
      }
      assert (exists k :: 0 <= k < |wants| && wants[k] !in regs) ==> exists k :: 0 <= k < |wants[1..]| && wants[1..][k] !in regs by {
        if exists k :: 0 <= k < |wants| && wants[k] !in regs {
          var k :| 0 <= k < |wants| && wants[k] !in regs;
          assert k > 0 && wants[1..][k - 1] == wants[k];
        }
      }
      r
  }

  /** `issue`: refuses a busy unit and changes nothing; otherwise reserves the
      unit for the instruction, fixes a Store's address from its base
      register and offset, and binds the wanted registers. */
  function Issue(u: Unit, instr: Instruction, regs: RegStatus): (r: Result<Option<Unit>, Fault>)
    ensures u.busy ==> r == Ok(None)
    ensures !u.busy ==> (r.Err? <==> exists k :: 0 <= k < |instr.Wants()| && instr.Wants()[k] !in regs)
    ensures !u.busy && r.Ok? ==> r.value.Some?
    ensures r.Ok? && r.value.Some? ==>
      var v := r.value.value;
      && v.busy && v.op == Some(instr.op) && v.instr == Some(instr)
      && v.kind == u.kind && v.name == u.name && v.result == u.result
      && (instr.kind == Store ==> v.a == Computed(Address(instr.rd, instr.Offset())))
      && (instr.kind != Store ==> v.a == u.a)
      && (v.qj == u.qj || v.qj in regs.Values) && (v.qk == u.qk || v.qk in regs.Values)
    ensures r.Ok? && r.value.Some? ==>
      var (v, w) := (r.value.value, instr.Wants()[|instr.Wants()| - 1]);
      && w in regs
      && (regs[w].Some? ==> v.qj == regs[w] || v.qk == regs[w])
      && (regs[w].None? ==> v.vj == Value(Address(w, None)) || v.vk == Value(Address(w, None)))
  {
    if u.busy then Ok(None)
    else
      var reserved := u.(busy := true, op := Some(instr.op), instr := Some(instr));
      var addressed := if instr.kind == Store then reserved.(a := Computed(Address(instr.rd, instr.Offset()))) else reserved;
      match BindSources(addressed, instr.Wants(), regs)
      case Err(f) => Err(f)
      case Ok(v) => Ok(Some(v))
  }

  /** `execute`. A Load whose A is still `''` only computes its address from
      its source register and offset. Otherwise the unit runs only when busy
      with no pending tag; running empties Vj and Vk and produces the result. */
  function Execute(u: Unit): (r: Result<(Unit, ExecOutcome), Fault>)
    ensures r.Err? <==> u.instr.None?
    ensures r.Err? ==> r.error == NoInstruction
    ensures r.Ok? ==> r.value.0.kind == u.kind && r.value.0.name == u.name && r.value.0.busy == u.busy
                      && r.value.0.qj == u.qj && r.value.0.qk == u.qk && r.value.0.instr == u.instr
    ensures r.Ok? && r.value.1 == AddressStep <==>
              u.instr.Some? && u.instr.value.kind == Load && u.a == Unset
    ensures r.Ok? && r.value.1 == AddressStep ==>
              r.value.0 == u.(a := Computed(Address(u.instr.value.rs, u.instr.value.Offset())))
    ensures r.Ok? && r.value.1 == Completed <==>
              u.instr.Some? && !(u.instr.value.kind == Load && u.a == Unset)
              && u.busy && u.qj.None? && u.qk.None?
    ensures r.Ok? && r.value.1 == Completed ==>
              r.value.0 == u.(vj := NoValue, vk := NoValue, result := true)
    ensures r.Ok? && r.value.1 == NotReady ==> r.value.0 == u
    ensures r.Ok? && r.value.0.result && !u.result ==> u.qj.None? && u.qk.None? && u.busy
  {
    match u.instr
    case None => Err(NoInstruction)
    case Some(instr) =>
      if instr.kind == Load && u.a == Unset then
        Ok((u.(a := Computed(Address(instr.rs, instr.Offset()))), AddressStep))
      else if u.qj.Some? || u.qk.Some? || !u.busy then
        Ok((u, NotReady))
      else
        Ok((u.(vj := NoValue, vk := NoValue, result := true), Completed))
  }

  /** `waitingOn` as written: false as soon as either tag is null, even when
      the other one names `t`. */
  function WaitingOn(u: Unit, t: Tag): (r: bool)
    ensures r ==> u.qj == Some(t) || u.qk == Some(t)
    ensures u.qj.None? || u.qk.None? ==> !r
    ensures u.qj.Some? && u.qk.Some? ==> (r <==> u.qj == Some(t) || u.qk == Some(t))
  {
    if u.qj.None? || u.qk.None? then false
    else u.qj == Some(t) || u.qk == Some(t)
  }

  /** `waitingOn` as its comment describes it: `t` is the Qj or the Qk source. */
  function WaitingOnIntended(u: Unit, t: Tag): bool
  {
    u.qj == Some(t) || u.qk == Some(t)
  }

  /** `resolve`: every tag equal to `t` is cleared and its V field marked
      present; tags naming another unit and all other fields are kept. */
  function Resolve(u: Unit, t: Tag): (r: Unit)
    ensures SameButOperands(u, r)
    ensures r.qj != Some(t) && r.qk != Some(t)
    ensures u.qj == Some(t) ==> r.qj.None? && r.vj == Resolved
    ensures u.qj != Some(t) ==> r.qj == u.qj && r.vj == u.vj
    ensures u.qk == Some(t) ==> r.qk.None? && r.vk == Resolved
    ensures u.qk != Some(t) ==> r.qk == u.qk && r.vk == u.vk
  {
    var afterJ := if u.qj == Some(t) then u.(qj := None, vj := Resolved) else u;
    if u.qk == Some(t) then afterJ.(qk := None, vk := Resolved) else afterJ
  }

  /** The field resets of `clear`: the unit is idle and empty again, except
      that A becomes null, not the `''` a fresh unit starts with. */
  function Clear(u: Unit): (r: Unit)
    ensures r.kind == u.kind && r.name == u.name
    ensures !r.busy && r.instr.None? && r.op.None? && !r.result
    ensures r.qj.None? && r.qk.None? && r.vj == NoValue && r.vk == NoValue
    ensures r.a == Cleared
    ensures r != Fresh(u.kind, u.name)
  {
    Unit(u.kind, u.name, false, None, NoValue, NoValue, None, None, Cleared, false, None)
  }

  /** The short-circuit makes `waitingOn` miss a unit that waits on `t`
      through one tag only. */
  lemma WaitingOnMissesSingleTag(u: Unit, t: Tag)
    requires u.qj == Some(t) && u.qk.None?
    ensures !WaitingOn(u, t) && WaitingOnIntended(u, t)
    ensures Resolve(u, t) != u
  {
  }

  /** The intended `waitingOn` holds exactly when a broadcast of `t` changes
      the unit, and the one as written implies it. */
  lemma WaitingOnIntendedMatchesResolve(u: Unit, t: Tag)
    ensures WaitingOnIntended(u, t) <==> Resolve(u, t) != u
    ensures WaitingOn(u, t) ==> WaitingOnIntended(u, t)
  {
    if u.qj == Some(t) {
      assert Resolve(u, t).qj != u.qj;
    } else if u.qk == Some(t) {
      assert Resolve(u, t).qk != u.qk;
    }
  }

  /** Register renaming at issue. On a unit with no tags and an empty Vj,
      every tag bound is the producer of a full wanted slot, the producer of
      every full wanted slot is bound, Vj stays empty, and the unit ends
      without pending tags exactly when every wanted slot is empty. */
  lemma IssueRenamesSources(u: Unit, instr: Instruction, regs: RegStatus)
    requires !u.busy && u.qj.None? && u.qk.None? && u.vj == NoValue
    requires forall w :: w in instr.Wants() ==> w in regs
    ensures Issue(u, instr, regs).Ok? && Issue(u, instr, regs).value.Some?
    ensures var v := Issue(u, instr, regs).value.value;
      && v.vj == NoValue
      && (forall w :: w in instr.Wants() && regs[w].Some? ==> v.qj == regs[w] || v.qk == regs[w])
      && (v.qj.Some? ==> exists w :: w in instr.Wants() && regs[w] == v.qj)
      && (v.qk.Some? ==> exists w :: w in instr.Wants() && regs[w] == v.qk)
      && (v.qj.None? && v.qk.None? <==> forall w :: w in instr.Wants() ==> regs[w].None?)
    ensures var (v, wants) := (Issue(u, instr, regs).value.value, instr.Wants());
      v.vk == (if |wants| == 2 && regs[wants[1]].None? then Value(Address(wants[1], None))
               else if regs[wants[0]].None? then Value(Address(wants[0], None))
               else u.vk)
  {
    var reserved := u.(busy := true, op := Some(instr.op), instr := Some(instr));
    var addressed := if instr.kind == Store then reserved.(a := Computed(Address(instr.rd, instr.Offset()))) else reserved;
    var wants := instr.Wants();
    var first := GetSource(addressed, wants[0], regs[wants[0]]);
    if |wants| == 1 {
      assert BindSources(addressed, wants, regs) == Ok(first) by {
        assert wants[1..] == [];
      }
    } else {
      var second := GetSource(first, wants[1], regs[wants[1]]);
      assert BindSources(addressed, wants, regs) == Ok(second) by {
        var tail := wants[1..];
        assert tail[0] == wants[1] && tail[1..] == [];
        assert BindSources(addressed, wants, regs) == BindSources(first, tail, regs);
        assert BindSources(first, tail, regs) == BindSources(second, tail[1..], regs);
      }
    }
  }

  /** A Load issued to a fresh unit first computes its address; one issued
      to a unit that has been cleared finds A null, not `''`, and skips
      that step. */
  lemma ReusedLoadSkipsAddressStep(u: Unit, instr: Instruction, regs: RegStatus)
    requires instr.kind == Load
    requires forall w :: w in instr.Wants() ==> w in regs
    ensures var newUnit := Issue(Fresh(u.kind, u.name), instr, regs).value.value;
      Execute(newUnit) == Ok((newUnit.(a := Computed(Address(instr.rs, instr.Offset()))), AddressStep))
    ensures var reused := Issue(Clear(u), instr, regs).value.value;
      Execute(reused).Ok? && Execute(reused).value.1 != AddressStep
  {
    var newUnit := Issue(Fresh(u.kind, u.name), instr, regs);
    var reused := Issue(Clear(u), instr, regs);
    assert newUnit.Ok? && newUnit.value.Some?;
    assert reused.Ok? && reused.value.Some?;
  }
}

=== FILE: wrappers.dfy ===
/** Option and Result, the failure-carrying values the engine returns in place
    of JavaScript's `null` results and thrown exceptions. */
module Wrappers {

  /** `None` stands for the source's `null` (an empty tag or a missing slot). */
  datatype Option<+T> = None | Some(value: T)

  /** `Err` stands for an exception the source throws. */
  datatype Result<+T, +E> = Ok(value: T) | Err(error: E)
}

/** The ways an operation of the engine can abort. Each one is an exception in
    the source: either an explicit `throw` or a TypeError raised by touching a
    property of `undefined` or `null`. */
module Faults {

  datatype Fault =
      /** `asm[key]` is undefined, so calling it raises a TypeError. */
    | UnknownMnemonic(key: string)
      /** The operands do not have the shape the mnemonic expects. */
    | MalformedCall(key: string)
      /** `registerStatus[name]` is undefined, so using it as a slot raises a TypeError. */
    | UnknownRegister(name: string)
      /** `execute` on a unit whose `instruction` is null reads `null.type`. */
    | NoInstruction
      /** The instruction row holds no unit (null) when it is asked to execute or write back. */
    | NoUnit
      /** `writeBack` of a unit that is not busy: "Execution Unit attempted writeback without instruction". */
    | WriteBackWithoutInstruction
}
